=== FILE: README.md ===
# Invoice billing and stock reservation, modelled in Dafny

This project models two cooperating services. The inventory service keeps
a stock ledger per product. The billing service keeps invoices and finalises
them with a saga against the inventory.

- **Stock ledger** (`product.dfy`, module `StockLedger`). A product carries
  `stock`, `reservedStock` and an optimistic-concurrency `version`. Reserve,
  confirm and cancel are guarded integer steps. Each returns the product
  after the call together with the error it reported.
- **Product table** (`product_repository.dfy`, module `ProductRepository`).
  The table is a `map<int, Row>` with an id counter. `Update` is a version
  compare-and-swap: it writes iff the stored version is one less than the
  product's.
- **Inventory application service** (`product_service.dfy`, module
  `ProductService`). Each stock operation is load, mutate, then conditional
  write. Reserve and confirm are first subject to the configured failure
  injection; cancel is not.
- **Invoice aggregate** (`invoice.dfy`, module `Invoices`). Items carry price
  snapshots and the total is derived from them. An invoice goes from open to
  closed, guarded by "not already closed" and "has items".
- **Billing client mapping** (`inventory_client.dfy`, module
  `InventoryClient`). This is how the billing service turns a reply from the
  inventory into an error.
- **Billing application service** (`invoice_service.dfy`, module
  `InvoiceService`). It holds the finalize-invoice saga `PrintInvoice`, with
  its reserve phase, confirm phase, compensations and close, and it holds
  `AddInvoiceItem`.
  - The inventory is a parameter: a function from an environment and a call
    to the next environment and a reply. Every such function is admissible.
  - Every run records the calls it issued.
  - Go's unspecified `range` order over the working-set map is a per-loop
    choice function (`Pick`). Saga properties are proved for every choice,
    which means every iteration order.
- **Inventory backend** (`inventory_backend.dfy`, module `InventoryBackend`).
  This module instantiates that parameter with the inventory HTTP handlers
  over the service model. The saga's promises can then be stated over the
  stock and reservation columns.

Money is whole cents (`int`). Clock readings are `int` parameters named
`now`, and `dbNow` for the database default.

Three behaviours of the code as written are proved here. They are not
corrections.

1. The saga's working set keeps only the last quantity per product. That a
   reserve-phase failure restores every reservation is proved for invoices
   whose products are distinct. `RepeatedProductLeaksReservation` shows the
   leak for one invoice that repeats a product.
2. On a confirm failure, the failed product's reservation is never
   released.
3. `AddInvoiceItem` reserves stock, and `PrintInvoice` reserves it again. It
   confirms only the second reservation, so the first stays held.

Behaviours of the code worth knowing, all modelled as written:

- the aggregate's `AddItem` has no closed-check;
- the inventory answers 500 for a missing product, lookup included: the
  repository reports a missing row as an error, so the lookup handler's
  404 branch is never reached;
- the confirm-phase compensation skips the product whose confirm failed.

## Model

| member | source | states |
|---|---|---|
| StockLedger.NewProduct | inventory-service/internal/domain/product/product.go:25-37 | A negative stock is rejected with InvalidStock. Otherwise the product has the given name, price and stock, no reservation, version 1, and is valid. |
| StockLedger.ReserveStock | inventory-service/internal/domain/product/product.go:39-47 | Fails with InsufficientStock exactly when the quantity exceeds the available stock, leaving the product unchanged. On success only the reservation grows by the quantity, the version rises by 1, and identity and stock are kept. Validity is kept for non-negative quantities. |
| StockLedger.ConfirmReservation | inventory-service/internal/domain/product/product.go:49-57 | Fails with InvalidStock exactly when the quantity exceeds the reservation, leaving the product unchanged. On success stock and reservation both drop by the quantity, so the available stock is unchanged, and the version rises by 1. |
| StockLedger.CancelReservation | inventory-service/internal/domain/product/product.go:59-66 | Fails with InvalidStock exactly when the quantity exceeds the reservation. On success only the reservation drops, the stock is unchanged and the version rises by 1. Validity is kept for non-negative quantities. |
| StockLedger.CancelUndoesReserve | inventory-service/internal/domain/product/product.go:44-45 | A cancel of the quantity just reserved succeeds. It restores stock and reservation, and the version ends 2 higher. |
| StockLedger.ReserveThenConfirmScenario | inventory-service/internal/domain/product/product.go:39-57 | With stock 10, reserve 7 gives reserved 7 and version 2. Confirm 7 then gives stock 3, reserved 0 and version 3, with identity untouched. |
| StockLedger.NegativeCancelBreaksInvariant | inventory-service/internal/domain/product/product.go:59-66 | With no sign check, a cancel of -1 is accepted and leaves more reserved than owned. |
| ProductRepository.GetByID | inventory-service/internal/infrastructure/persistence/postgres.go:28-41 | Fails with NotFound exactly for an absent id. Otherwise it returns a snapshot of the stored columns under that id. |
| ProductRepository.Create | inventory-service/internal/infrastructure/persistence/postgres.go:17-26 | Stores the product's columns under a fresh id and hands that id back. A later read returns them with the database's creation time, and other rows are untouched. |
| ProductRepository.Update | inventory-service/internal/infrastructure/persistence/postgres.go:43-67 | Writes iff the id exists and its stored version is the product's version minus 1. Then stock, reservation and version take the product's values. Otherwise it returns ConcurrentUpdate and the table is unchanged. Name, price and creation time never change, nor do other rows. |
| ProductRepository.UpdateThenGet | inventory-service/internal/infrastructure/persistence/postgres.go:43-67 | After a successful update, a read returns the written counters. |
| ProductRepository.SecondWriterLoses | inventory-service/internal/infrastructure/persistence/postgres.go:47-64 | Two writers that loaded the same version cannot both succeed. The second gets ConcurrentUpdate and the first writer's row stays. |
| ProductService.LoadMutateSave | inventory-service/internal/application/product/service.go:45-56 | A missing row or a rejected ledger step returns its error after a single load and with the table unchanged. Otherwise one load and one write are issued, and the row becomes the ledger step applied to the loaded row. |
| ProductService.ReserveStock | inventory-service/internal/application/product/service.go:37-57 | In failure mode "reserve" it returns a simulated failure with no repository call. Otherwise it succeeds iff the product exists and the quantity fits the available stock. Success moves only that row's reservation and version, failure leaves the table unchanged, and valid tables stay valid for non-negative quantities. |
| ProductService.ConfirmStock | inventory-service/internal/application/product/service.go:59-76 | In failure mode "confirm" it fails with no repository call. Otherwise it succeeds iff the product exists and holds at least the quantity reserved, and then only that row's stock and reservation drop. Failure leaves the table unchanged. |
| ProductService.CancelReservation | inventory-service/internal/application/product/service.go:78-89 | There is no failure injection: it always loads first. It succeeds iff the product exists and holds at least the quantity reserved, then releases it. Failure leaves the table unchanged. |
| ProductService.GetProductByID | inventory-service/internal/application/product/service.go:91-97 | Fails exactly for an absent id, otherwise it returns the stored product. |
| ProductService.CreateProduct | inventory-service/internal/application/product/service.go:23-35 | A negative stock is rejected with the table unchanged. Otherwise a fresh row is stored that reads back with no reservation and version 1, and every existing row stays as it was. The returned product has the given name, price and stock, no reservation, version 1, the new id and the application's creation time. |
| ProductService.StaleWriterLoses | inventory-service/internal/application/product/service.go:56 | A service call that loaded a row before another call committed cannot overwrite it: its write gets ConcurrentUpdate. |
| Invoices.NewInvoice | billing-service/internal/domain/invoice/invoice.go:42-49 | The invoice is open with the given number and creation time, no items, total 0, no closing time, and is consistent. |
| Invoices.CalculateTotal | billing-service/internal/domain/invoice/invoice.go:82-88 | The loop leaves the total equal to the sum of quantity times price over the items and changes nothing else. The result depends on the items alone, so a second call returns the same invoice. |
| Invoices.AddItem | billing-service/internal/domain/invoice/invoice.go:51-65 | Exactly one item is appended after the earlier ones, carrying the given snapshot. The total equals the item sum, and status and closing time are unchanged because there is no closed-check. A consistent invoice stays consistent. |
| Invoices.Close | billing-service/internal/domain/invoice/invoice.go:67-81 | A closed invoice gives AlreadyClosed, and that check comes before the empty check. An open one without items gives EmptyInvoice. Success happens exactly for an open invoice with items and sets status and closing time. Items and total never change. |
| Invoices.CloseIsFinal | billing-service/internal/domain/invoice/invoice.go:67-70 | Once closed, every later close fails with AlreadyClosed and keeps the first closing time. |
| InventoryClient.LookupOutcome | billing-service/internal/application/invoice/service.go:156-185 | An unreachable service or any non-200 other than 404 gives InventoryService, and 404 gives ProductNotFound. An undecodable body is an error, and stock below the quantity gives StockReservation. Success happens iff the reply is 200 with a decoded body whose stock covers the quantity. |
| InventoryClient.ReserveOutcome | billing-service/internal/application/invoice/service.go:187-216 | Succeeds iff the answer is 200. An unreachable service gives InventoryService, and another status gives an error carrying that status. |
| InventoryClient.ConfirmOutcome | billing-service/internal/application/invoice/service.go:218-238 | Succeeds iff the answer is 200, and every failure is InventoryService. |
| InventoryClient.CancelOutcome | billing-service/internal/application/invoice/service.go:240-262 | A non-positive quantity gives InvalidQuantity. Otherwise only an unreachable service is an error, and any answered status counts as success. |
| InvoiceService.WorkingSetIsLastWrite | billing-service/internal/application/invoice/service.go:118-130 | The working set holds exactly the product ids of the items. Each maps to the quantity of the last item naming it. |
| InvoiceService.CancelEach | billing-service/internal/application/invoice/service.go:124-126 | Issues one cancel per swept product with a positive quantity, carrying that quantity. No product is cancelled twice, and non-positive quantities produce no call. |
| InvoiceService.ReserveItems | billing-service/internal/application/invoice/service.go:121-130 | Reserves the items in order. A completed loop issued exactly one reserve per item. A loop that fails at item `failedAt` issued the reserves of the items up to and including it. Its compensation cancels the working set of the items before it, and its error is InventoryService or a rejection carrying a status. `ReserveErrorIsFailingReply` and `EarlierReservesAccepted` tie this to the replies. |
| InvoiceService.ReserveItemsStep | billing-service/internal/application/invoice/service.go:121-129 | A rejected reserve of item `i` ends the loop at `i` with exactly the error the reserve helper returned for that reply, in the state the compensation leaves. An accepted one hands over to item `i + 1` with that item's quantity written into the working set. The loop then ends as the rest of it does, with the same failure index and error. |
| InvoiceService.ReserveErrorIsFailingReply | billing-service/internal/application/invoice/service.go:121-128 | A failed reserve loop returns exactly the error of the reserve of item `failedAt`. That reserve is issued in the state the earlier reserves left, and its outcome is a failure. |
| InvoiceService.EarlierReservesAccepted | billing-service/internal/application/invoice/service.go:121-130 | The loop stops at the first rejected reserve. Every reserve before `failedAt` was accepted, and every reserve at all was accepted when none failed. A completed loop ends in the state its reserves left. |
| InvoiceService.ConfirmEach | billing-service/internal/application/invoice/service.go:133-146 | A completed loop confirms each working-set product exactly once, in some order, with its quantity. A failed loop confirmed distinct products before it, then issued the confirm of the failed product. Its cancels cover every other working-set product and never the failed one. `ConfirmOutcomesDecide` ties the outcome to the replies. |
| InvoiceService.ConfirmEachStep | billing-service/internal/application/invoice/service.go:133-145 | A rejected confirm of the visited product ends the loop at that product, with nothing confirmed and in the state the compensation leaves. An accepted one hands over to the remaining keys and counts as confirmed first. The rest of the loop then decides the end, the state and the failed product. |
| InvoiceService.ConfirmOutcomesDecide | billing-service/internal/application/invoice/service.go:133-145 | A completed loop had every confirm along its order accepted and ends in the state they left. A failed loop had every confirm before the failed one accepted. The failed product's confirm, issued after them, was rejected. |
| InvoiceService.PrintInvoice | billing-service/internal/application/invoice/service.go:105-154 | A missing or closed invoice is rejected with no inventory call. The result is rejected exactly in those cases. The invoice store changes only on success, and only by closing this invoice at `now`. A reserve failure, confirm failure or close failure leaves the invoices unchanged, with the call log each stage promises. A reserve-phase error is InventoryService or a rejection carrying a status. `PrintConfirmOutcomesDecide` and `PrintReturnsFailingReserveError` tie the stage to the replies. |
| InvoiceService.PrintFollowsPhases | billing-service/internal/application/invoice/service.go:121-147 | An open invoice's print stops in the reserve phase exactly when the reserve loop fails. It then returns that loop's error and that loop's state. Otherwise it ends in the confirm loop's state. A confirm failure stops it at that product, and a completed confirm loop leads to the close, with the loop's order. |
| InvoiceService.PrintReturnsFailingReserveError | billing-service/internal/application/invoice/service.go:121-128 | A print that fails while reserving returns, unchanged, the error of the reserve of item `index`, whose outcome is a failure. Every earlier item's reserve was accepted. |
| InvoiceService.PrintConfirmOutcomesDecide | billing-service/internal/application/invoice/service.go:121-153 | A print reaches the confirm phase only after every reserve was accepted. It closes the invoice only after every confirm, issued from the state the reserves left, was accepted too. A print that fails while confirming had every earlier confirm accepted, and the failed product's confirm was rejected. |
| InvoiceService.EmptyInvoiceIsNotClosed | billing-service/internal/application/invoice/service.go:148-151 | An open invoice without items makes no inventory call and fails to close with EmptyInvoice. |
| InvoiceService.CancelHandlingDoesNotMatter | billing-service/internal/application/invoice/service.go:125 | Whatever handles the compensating cancels, including one that ignores them, the print returns the same error, invoices, calls and stage. A completed print is identical. |
| InvoiceService.AddInvoiceItem | billing-service/internal/application/invoice/service.go:60-103 | Checks run in order: missing invoice, then closed with no call. Any lookup failure gives ProductNotFound after one call. A rejected reserve gives StockReservation with no item added. Success happens iff lookup and reserve succeed, and appends one item with the looked-up price and name. |
| InventoryBackend.Serve | inventory-service/internal/infrastructure/http/handlers/handlers.go:49-150 | A lookup answers 200 with the stored product iff it exists. A reserve answers 400 for a non-positive quantity and 200 iff the service accepts. Confirm and cancel answer 200 iff the service accepts. Every non-200 leaves the inventory unchanged. |
| InventoryBackend.CancelsRelease | billing-service/internal/application/invoice/service.go:124-126 | Against the inventory, each compensating cancel is accepted and releases exactly the swept products' working-set quantities. |
| InventoryBackend.UnroutedSweepReleasesNothing | billing-service/internal/application/invoice/service.go:240-249 | With cancels posted to a path the inventory does not route, a compensation sweep leaves the inventory exactly as it was. |
| InventoryBackend.ReservesHold | billing-service/internal/application/invoice/service.go:121-130 | With distinct products, a completed reserve loop holds each item's quantity. A failed one leaves every product's stock and reservation as at entry. |
| InventoryBackend.ConfirmsSettle | billing-service/internal/application/invoice/service.go:133-146 | Unless confirmation failures are injected, every confirm is accepted and turns each held quantity into sold stock. |
| InventoryBackend.ReserveFailureRestoresInventory | billing-service/internal/application/invoice/service.go:121-128 | With distinct products, a print that fails while reserving leaves every product's stock and reservation as they were. |
| InventoryBackend.CompletedSaleConsumesStock | billing-service/internal/application/invoice/service.go:133-153 | Against an inventory that does not inject confirm failures, the print never fails while confirming. A completed print has taken each item's quantity out of stock with reservations back at their entry values. |
| InventoryBackend.InjectedConfirmFailureKeepsReservation | billing-service/internal/application/invoice/service.go:133-145 | With confirm failures injected, the print never completes, and a confirm failure happens before any product is confirmed. Afterwards the failed product still holds its reservation, every other one is released and no stock is sold. |
| InventoryBackend.AddedItemHoldsReservation | billing-service/internal/application/invoice/service.go:71-89 | An accepted add has reserved the quantity on that product only. A rejected add leaves the inventory unchanged. |
| InventoryBackend.AddThenPrintHoldsFirstReservation | billing-service/internal/application/invoice/service.go:77-130 | After adding one item to an empty invoice and printing it, the product has sold the quantity and still holds it reserved. |
| InventoryBackend.RepeatedProductLeaksReservation | billing-service/internal/application/invoice/service.go:129 | Take an invoice naming product 1 for 2 and then 3 units, followed by a missing product. Its failed print leaves 2 units of product 1 reserved. |

## Left out

- HTTP, JSON, routing and process wiring are reduced to status codes. The
  inventory is the `Remote` parameter or `InventoryBackend.Serve`. Request
  decoding errors, for example an invalid id or body, are not modelled.
- Money is `float64` in the code. It is whole cents (`int`) here, so no
  rounding is modelled.
- Go `int` overflow is not modelled, including the version counter's
  wrap-around. Integers are unbounded.
- `time.Now()` and the database's `created_at` default are `int`
  parameters.
- Database errors other than "no row" are not modelled. Real concurrency is
  shown only as sequential interleavings against the table
  (`SecondWriterLoses`, `StaleWriterLoses`).
- `billing-service/internal/infrastructure/persistence/postgres.go` defines
  no `AddItem`. `InvoiceService.RepoAddItem` takes it to append the item
  row, with item id 0.
- `InvoiceService.AddInvoiceItem`: the stored total is written back as it
  was reloaded. Whether the item insert updates `total_value` is not
  visible, so the model does not recompute it.
- `InvoiceService.PrintInvoice`: items are visited in their stored order.
  The item query has no `ORDER BY`.
- The cancel URL `/products/{id}/cancel` does not match the inventory route
  `/cancel-reserve`. `InventoryBackend.Serve` routes cancels to the cancel
  handler, and the inventory theorems assume that routing. As deployed,
  every compensating cancel would get a 404 and release nothing
  (`UnroutedSweepReleasesNothing`). The client counts a 404 as success, so
  the billing result is the same either way (`CancelHandlingDoesNotMatter`);
  only the inventory differs.
- The saga-level inventory theorems are stated for invoices whose items
  name distinct products. `RepeatedProductLeaksReservation` shows what
  happens otherwise.
- The following operations are not modelled: `CreateInvoice`,
  `GetInvoiceByID`, `ListInvoices`, `GetAllProducts`, the billing and
  invoice-list UI, configuration loading and logging.

=== FILE: inventory_backend.dfy ===
/** The inventory service as the billing saga's remote: its HTTP handlers
    over the application service, so that the saga's calls move real ledger
    rows. With this backend the saga's promises can be stated in terms of the
    stock and reservation columns instead of the calls it issued. */
module InventoryBackend {
  import opened Wrappers
  import opened ProductRepository
  import ProductService
  import opened Invoices
  import opened InventoryClient
  import opened InvoiceService

  /** The inventory process: its fault-injection configuration and its table. */
  datatype Inventory = Inventory(config: ProductService.Config, store: Store)

  const StatusBadRequest := 400
  const StatusInternalServerError := 500

  /** A handler's reply to a service call: 200 on success, 500 on any error. */
  function Acknowledge(outcome: Outcome<ProductService.ServiceError>): Reply {
    if outcome.Pass? then Answered(StatusOK, None) else Answered(StatusInternalServerError, None)
  }

  /** The four handlers the billing service calls. Only the reserve handler
      checks the quantity's sign; every service error becomes a 500, a missing
      product included. */
  function Serve(inv: Inventory, c: Call): (r: (Inventory, Reply))
    ensures r.0.config == inv.config && r.1.Answered?
    ensures r.1.status != StatusOK ==> r.0 == inv
    ensures c.Lookup? ==> r.0 == inv
    ensures c.Lookup? ==>
              (r.1.status == StatusOK <==> c.productId in inv.store.rows)
              && (r.1.status == StatusOK ==>
                    var row := inv.store.rows[c.productId];
                    r.1.body == Some(ProductInfo(c.productId, row.name, row.price, row.stock)))
    ensures c.Reserve? ==>
              (r.1.status == StatusOK <==>
                 c.quantity > 0 && inv.config.failureMode != "reserve" && c.productId in inv.store.rows
                 && c.quantity <= inv.store.rows[c.productId].stock - inv.store.rows[c.productId].reservedStock)
    ensures c.Reserve? && c.quantity <= 0 ==> r.1.status == StatusBadRequest
    ensures c.Confirm? ==>
              (r.1.status == StatusOK <==>
                 inv.config.failureMode != "confirm" && c.productId in inv.store.rows
                 && c.quantity <= inv.store.rows[c.productId].reservedStock)
    ensures c.Cancel? ==>
              (r.1.status == StatusOK <==>
                 c.productId in inv.store.rows && c.quantity <= inv.store.rows[c.productId].reservedStock)
    ensures StoreValid(inv.store) && (c.Lookup? || c.quantity >= 0) ==> StoreValid(r.0.store)
  {
    match c
    case Lookup(id) =>
      var found := ProductService.GetProductByID(inv.store, id);
      if found.Err? then (inv, Answered(StatusInternalServerError, None))
      else
        var p := found.value;
        (inv, Answered(StatusOK, Some(ProductInfo(p.id, p.name, p.price, p.stock))))
    case Reserve(id, quantity) =>
      if quantity <= 0 then (inv, Answered(StatusBadRequest, None))
      else
        var step := ProductService.ReserveStock(inv.config, inv.store, id, quantity);
        (inv.(store := step.store), Acknowledge(step.outcome))
    case Confirm(id, quantity) =>
      var step := ProductService.ConfirmStock(inv.config, inv.store, id, quantity);
      (inv.(store := step.store), Acknowledge(step.outcome))
    case Cancel(id, quantity) =>
      var step := ProductService.CancelReservation(inv.store, id, quantity);
      (inv.(store := step.store), Acknowledge(step.outcome))
  }

  // ---------------------------------------------------------------------
  // The ledger seen from a saga

  /** No two items of the invoice name the same product. */
  predicate DistinctProducts(items: seq<InvoiceItem>) {
    forall i, j | 0 <= i < j < |items| :: items[i].productId != items[j].productId
  }

  predicate NoNegativeReservations(s: Store) {
    forall id | id in s.rows :: s.rows[id].reservedStock >= 0
  }

  /** The quantity the working set attributes to `id` if `id` is in `keys`. */
  function Share(id: int, keys: set<int>, ws: map<int, int>): int {
    if id in keys && id in ws then ws[id] else 0
  }

  /** The table `s` is the table `s0` with the working-set quantities of the
      products in `held` still reserved and those of the products in `sold`
      taken out of the stock; nothing else differs in these two columns. */
  ghost predicate Settled(s: Store, s0: Store, held: set<int>, sold: set<int>, ws: map<int, int>) {
    && s.rows.Keys == s0.rows.Keys
    && (forall k | k in held || k in sold :: k in s0.rows && k in ws && ws[k] > 0)
    && (forall id | id in s0.rows ::
          && s.rows[id].stock == s0.rows[id].stock - Share(id, sold, ws)
          && s.rows[id].reservedStock == s0.rows[id].reservedStock + Share(id, held, ws))
  }

  /** Every product's stock and reservations are as they were in `s0`. */
  ghost predicate Restored(s: Store, s0: Store) {
    && s.rows.Keys == s0.rows.Keys
    && (forall id | id in s0.rows ::
          s.rows[id].stock == s0.rows[id].stock && s.rows[id].reservedStock == s0.rows[id].reservedStock)
  }

  lemma NothingHeldIsRestored(s: Store, s0: Store, ws: map<int, int>)
    requires Settled(s, s0, {}, {}, ws)
    ensures Restored(s, s0)
  {
  }

  /** The compensation loop releases exactly the reservations it sweeps over:
      every cancel it issues is accepted, and the products outside the sweep
      keep whatever they held. */
  lemma {:induction false} CancelsRelease(keys: set<int>, rest: set<int>, sold: set<int>, ws: map<int, int>,
                                          pick: Pick, inv: Inventory, s0: Store)
    requires keys <= ws.Keys && Picks(pick) && keys !! rest && NoNegativeReservations(s0)
    requires Settled(inv.store, s0, keys + rest, sold, ws)
    ensures var r := CancelEach(keys, ws, pick, inv, Serve);
            Settled(r.env.store, s0, rest, sold, ws) && r.env.config == inv.config
    decreases keys
  {
    if keys != {} {
      var k := pick(keys);
      assert k in keys + rest;
      var inv' := Serve(inv, Cancel(k, ws[k])).0;
      assert Settled(inv'.store, s0, (keys - {k}) + rest, sold, ws) by {
        forall id | id in s0.rows
          ensures inv'.store.rows[id].reservedStock
                  == s0.rows[id].reservedStock + Share(id, (keys - {k}) + rest, ws)
        {
        }
      }
      CancelsRelease(keys - {k}, rest, sold, ws, pick, inv', s0);
    }
  }

  /** With distinct products, the product of item `i` is not yet in the
      working set of the items before it. */
  lemma FirstOccurrence(items: seq<InvoiceItem>, i: nat)
    requires i < |items| && DistinctProducts(items)
    ensures items[i].productId !in WorkingSet(items[..i])
  {
    WorkingSetIsLastWrite(items[..i]);
  }

  /** An accepted reserve of a product not yet held adds it to the held set. */
  lemma ReserveAccepted(inv: Inventory, s0: Store, ws: map<int, int>, id: int, quantity: int)
    requires Settled(inv.store, s0, ws.Keys, {}, ws) && id !in ws
    requires Serve(inv, Reserve(id, quantity)).1.status == StatusOK
    ensures Settled(Serve(inv, Reserve(id, quantity)).0.store, s0, ws[id := quantity].Keys, {}, ws[id := quantity])
  {
    var s := Serve(inv, Reserve(id, quantity)).0.store;
    var ws' := ws[id := quantity];
    forall k | k in ws'.Keys
      ensures k in s0.rows && ws'[k] > 0
    {
    }
    forall x | x in s0.rows
      ensures s.rows[x].reservedStock == s0.rows[x].reservedStock + Share(x, ws'.Keys, ws')
    {
    }
  }

  /** The compensation after a rejected reserve gives back everything held. */
  lemma RejectionReleasesHeld(ws: map<int, int>, pick: Pick, inv: Inventory, s0: Store)
    requires Picks(pick) && NoNegativeReservations(s0)
    requires Settled(inv.store, s0, ws.Keys, {}, ws)
    ensures var comp := CancelEach(ws.Keys, ws, pick, inv, Serve);
            Restored(comp.env.store, s0) && comp.env.config == inv.config
  {
    CancelsRelease(ws.Keys, {}, {}, ws, pick, inv, s0);
    NothingHeldIsRestored(CancelEach(ws.Keys, ws, pick, inv, Serve).env.store, s0, ws);
  }

  /** With distinct products, the reserve loop holds each reserved item's
      quantity, and when it fails, its compensation gives every reservation
      back. */
  lemma {:induction false} ReservesHold(items: seq<InvoiceItem>, i: nat, ws: map<int, int>, pick: Pick,
                                        inv: Inventory, s0: Store)
    requires i <= |items| && ws == WorkingSet(items[..i]) && Picks(pick)
    requires DistinctProducts(items) && NoNegativeReservations(s0)
    requires Settled(inv.store, s0, ws.Keys, {}, ws)
    ensures var r := ReserveItems(items, i, ws, pick, inv, Serve);
            && r.env.config == inv.config
            && (r.AllReserved? ==> Settled(r.env.store, s0, WorkingSet(items).Keys, {}, WorkingSet(items)))
            && (r.ReserveFailed? ==> Restored(r.env.store, s0))
    decreases |items| - i
  {
    if i == |items| {
      assert items[..i] == items;
    } else {
      var item := items[i];
      var inv' := Serve(inv, Reserve(item.productId, item.quantity)).0;
      var ws' := ws[item.productId := item.quantity];
      WorkingSetStep(items, i);
      ReserveItemsStep(items, i, ws, ws', pick, inv, Serve);
      if ReserveOutcome(Serve(inv, Reserve(item.productId, item.quantity)).1).Fail? {
        RejectionReleasesHeld(ws, pick, inv', s0);
      } else {
        FirstOccurrence(items, i);
        ReserveAccepted(inv, s0, ws, item.productId, item.quantity);
        ReservesHold(items, i + 1, ws', pick, inv', s0);
      }
    }
  }

  /** On an inventory whose confirmations are not switched off, every confirm
      of the loop is accepted and turns the held quantity into sold stock. */
  lemma {:induction false} ConfirmsSettle(keys: set<int>, ws: map<int, int>, sched: Schedule,
                                          inv: Inventory, s0: Store)
    requires keys <= ws.Keys && ValidSchedule(sched) && NoNegativeReservations(s0)
    requires inv.config.failureMode != "confirm"
    requires Settled(inv.store, s0, keys, ws.Keys - keys, ws)
    ensures var r := ConfirmEach(keys, ws, sched, inv, Serve);
            r.AllConfirmed? && Settled(r.env.store, s0, {}, ws.Keys, ws)
    decreases keys
  {
    if keys != {} {
      var k := sched.confirmOrder(keys);
      var inv' := Serve(inv, Confirm(k, ws[k])).0;
      assert Settled(inv'.store, s0, keys - {k}, ws.Keys - (keys - {k}), ws) by {
        forall id | id in s0.rows
          ensures && inv'.store.rows[id].stock == s0.rows[id].stock - Share(id, ws.Keys - (keys - {k}), ws)
                  && inv'.store.rows[id].reservedStock
                     == s0.rows[id].reservedStock + Share(id, keys - {k}, ws)
        {
        }
      }
      ConfirmsSettle(keys - {k}, ws, sched, inv', s0);
    }
  }

  /** With confirmations switched off, the confirm loop fails on the first
      product it picks and releases the reservations of all the others. */
  lemma FirstConfirmFails(ws: map<int, int>, sched: Schedule, inv: Inventory, s0: Store)
    requires ValidSchedule(sched) && NoNegativeReservations(s0) && ws.Keys != {}
    requires inv.config.failureMode == "confirm"
    requires Settled(inv.store, s0, ws.Keys, {}, ws)
    ensures var r := ConfirmEach(ws.Keys, ws, sched, inv, Serve);
            r.ConfirmFailed? && r.confirmed == [] && Settled(r.env.store, s0, {r.productId}, {}, ws)
  {
    var k := sched.confirmOrder(ws.Keys);
    var inv' := Serve(inv, Confirm(k, ws[k])).0;
    assert (ws.Keys - {k}) + {k} == ws.Keys;
    CancelsRelease(ws.Keys - {k}, {k}, {}, ws, sched.confirmCompensation, inv', s0);
  }

  /** The billing client posts cancels to `/products/{id}/cancel`, a path
      the inventory does not route: every cancel is answered 404 and touches
      nothing. */
  function UnroutedCancels(): Remote<Inventory> {
    (inv: Inventory, c: Call) => (inv, Answered(StatusNotFound, None))
  }

  /** With cancels unrouted, a compensation sweep issues its cancels and
      releases nothing: the inventory ends as it started. */
  lemma {:induction false} UnroutedSweepReleasesNothing(keys: set<int>, ws: map<int, int>, pick: Pick,
                                                       inv: Inventory)
    requires keys <= ws.Keys && Picks(pick)
    ensures CancelEach(keys, ws, pick, inv, WithCancelHandler(Serve, UnroutedCancels())).env == inv
    decreases keys
  {
    if keys != {} {
      UnroutedSweepReleasesNothing(keys - {pick(keys)}, ws, pick, inv);
    }
  }

  /** Entry conditions of the three theorems below: an open invoice whose
      items name distinct products, and a table with no negative reservation. */
  lemma SagaStart(repo: InvoiceRepo, id: int, inv: Inventory, pick: Pick)
    requires id in repo && DistinctProducts(repo[id].items) && NoNegativeReservations(inv.store)
    requires Picks(pick)
    ensures var r := ReserveItems(repo[id].items, 0, map[], pick, inv, Serve);
            var ws := WorkingSet(repo[id].items);
            && r.env.config == inv.config
            && (r.AllReserved? ==> Settled(r.env.store, inv.store, ws.Keys, {}, ws))
            && (r.ReserveFailed? ==> Restored(r.env.store, inv.store))
  {
    assert repo[id].items[..0] == [];
    ReservesHold(repo[id].items, 0, map[], pick, inv, inv.store);
  }

  /** A print that fails while reserving leaves every product's stock and
      reservations as they were before it started. */
  lemma ReserveFailureRestoresInventory(repo: InvoiceRepo, id: int, now: int, inv: Inventory, sched: Schedule)
    requires ValidSchedule(sched) && id in repo
    requires DistinctProducts(repo[id].items) && NoNegativeReservations(inv.store)
    ensures var r := PrintInvoice(repo, id, now, inv, Serve, sched);
            r.stage.ReserveFailedAt? ==> Restored(r.run.env.store, inv.store)
  {
    SagaStart(repo, id, inv, sched.reserveCompensation);
    if repo[id].status == Open {
      PrintFollowsPhases(repo, id, now, inv, Serve, sched);
    }
  }

  /** Both loops of a print without injected confirm failures: once every
      reserve is accepted, every confirm is too, and the stock ends sold. */
  lemma SaleSettles(items: seq<InvoiceItem>, inv: Inventory, sched: Schedule)
    requires ValidSchedule(sched) && DistinctProducts(items) && NoNegativeReservations(inv.store)
    requires inv.config.failureMode != "confirm"
    ensures var ws := WorkingSet(items);
            var phase := ReserveItems(items, 0, map[], sched.reserveCompensation, inv, Serve);
            phase.AllReserved? ==>
              var confirm := ConfirmEach(ws.Keys, ws, sched, phase.env, Serve);
              confirm.AllConfirmed? && Settled(confirm.env.store, inv.store, {}, ws.Keys, ws)
  {
    assert items[..0] == [];
    ReservesHold(items, 0, map[], sched.reserveCompensation, inv, inv.store);
    var ws := WorkingSet(items);
    var phase := ReserveItems(items, 0, map[], sched.reserveCompensation, inv, Serve);
    if phase.AllReserved? {
      assert ws.Keys - ws.Keys == {};
      ConfirmsSettle(ws.Keys, ws, sched, phase.env, inv.store);
    }
  }

  /** Against an inventory that does not inject confirm failures, the saga
      never fails while confirming, and a completed print has taken each
      item's quantity out of its product's stock while leaving the
      reservations as they were. */
  lemma CompletedSaleConsumesStock(repo: InvoiceRepo, id: int, now: int, inv: Inventory, sched: Schedule)
    requires ValidSchedule(sched) && id in repo
    requires DistinctProducts(repo[id].items) && NoNegativeReservations(inv.store)
    requires inv.config.failureMode != "confirm"
    ensures var r := PrintInvoice(repo, id, now, inv, Serve, sched);
            var ws := WorkingSet(repo[id].items);
            && !r.stage.ConfirmFailedFor?
            && (r.stage.Completed? ==> Settled(r.run.env.store, inv.store, {}, ws.Keys, ws))
  {
    if repo[id].status == Open {
      PrintFollowsPhases(repo, id, now, inv, Serve, sched);
      SaleSettles(repo[id].items, inv, sched);
    }
  }


  /** With confirmations switched off, the first confirm fails and the
      compensation skips the product it failed on: that product's
      reservation stays held, every other one is released, nothing is sold,
      and the invoice stays open. */
  lemma InjectedConfirmFailureKeepsReservation(repo: InvoiceRepo, id: int, now: int, inv: Inventory,
                                               sched: Schedule)
    requires ValidSchedule(sched) && id in repo
    requires DistinctProducts(repo[id].items) && NoNegativeReservations(inv.store)
    requires inv.config.failureMode == "confirm"
    ensures var r := PrintInvoice(repo, id, now, inv, Serve, sched);
            var ws := WorkingSet(repo[id].items);
            && !r.stage.Completed? && r.invoices == repo
            && (r.stage.ConfirmFailedFor? ==>
                  r.stage.confirmed == [] && Settled(r.run.env.store, inv.store, {r.stage.productId}, {}, ws))
  {
    SagaStart(repo, id, inv, sched.reserveCompensation);
    if repo[id].status == Open {
      var phase := ReserveItems(repo[id].items, 0, map[], sched.reserveCompensation, inv, Serve);
      var ws := WorkingSet(repo[id].items);
      PrintFollowsPhases(repo, id, now, inv, Serve, sched);
      if phase.AllReserved? {
        WorkingSetIsLastWrite(repo[id].items);
        if ws.Keys != {} {
          FirstConfirmFails(ws, sched, phase.env, inv.store);
        }
      }
    }
  }

  /** Adding an item reserves its quantity on the product: an accepted add
      has moved exactly that row's reservation, and a rejected one has left
      the inventory untouched. */
  lemma AddedItemHoldsReservation(repo: InvoiceRepo, invoiceId: int, productId: int, quantity: int,
                                  inv: Inventory)
    ensures var r := AddInvoiceItem(repo, invoiceId, productId, quantity, inv, Serve);
            && (r.err.Some? ==> r.run.env == inv)
            && (r.err.None? ==>
                  && quantity > 0 && productId in inv.store.rows
                  && r.run.env.config == inv.config
                  && r.run.env.store.rows == inv.store.rows[productId := inv.store.rows[productId].(
                       reservedStock := inv.store.rows[productId].reservedStock + quantity,
                       version := inv.store.rows[productId].version + 1)])
  {
  }

  lemma SingleItemWorkingSet(items: seq<InvoiceItem>)
    requires |items| == 1
    ensures WorkingSet(items) == map[items[0].productId := items[0].quantity]
  {
    assert items[..0] == [];
  }

  /** A table that sold one product's working-set quantity differs from the
      original only in that product's stock. */
  lemma SoleSale(s: Store, s0: Store, id: int, quantity: int)
    requires Settled(s, s0, {}, map[id := quantity].Keys, map[id := quantity])
    ensures id in s0.rows && id in s.rows
    ensures s.rows[id].stock == s0.rows[id].stock - quantity
    ensures s.rows[id].reservedStock == s0.rows[id].reservedStock
  {
    assert id in map[id := quantity].Keys;
  }

  /** An accepted add to an item-less invoice leaves it holding that one
      item, on a table that still has no negative reservation. */
  lemma AddedSingleItem(repo: InvoiceRepo, invoiceId: int, productId: int, quantity: int, inv: Inventory)
    requires invoiceId in repo && repo[invoiceId].status == Open && repo[invoiceId].items == []
    requires NoNegativeReservations(inv.store)
    requires AddInvoiceItem(repo, invoiceId, productId, quantity, inv, Serve).err.None?
    ensures var added := AddInvoiceItem(repo, invoiceId, productId, quantity, inv, Serve);
            && invoiceId in added.invoices
            && DistinctProducts(added.invoices[invoiceId].items)
            && WorkingSet(added.invoices[invoiceId].items) == map[productId := quantity]
            && NoNegativeReservations(added.run.env.store)
            && added.run.env.config == inv.config
            && productId in inv.store.rows
            && added.run.env.store.rows == inv.store.rows[productId := inv.store.rows[productId].(
                 reservedStock := inv.store.rows[productId].reservedStock + quantity,
                 version := inv.store.rows[productId].version + 1)]
  {
    var added := AddInvoiceItem(repo, invoiceId, productId, quantity, inv, Serve);
    AddedItemHoldsReservation(repo, invoiceId, productId, quantity, inv);
    SingleItemWorkingSet(added.invoices[invoiceId].items);
  }

  /** A completed print of an invoice whose only product is `id` sells the
      working-set quantity of `id`. */
  lemma SingleProductSale(repo: InvoiceRepo, invoiceId: int, id: int, quantity: int, now: int,
                          inv: Inventory, sched: Schedule)
    requires ValidSchedule(sched) && invoiceId in repo
    requires DistinctProducts(repo[invoiceId].items) && NoNegativeReservations(inv.store)
    requires WorkingSet(repo[invoiceId].items) == map[id := quantity]
    requires inv.config.failureMode != "confirm"
    ensures var printed := PrintInvoice(repo, invoiceId, now, inv, Serve, sched);
            printed.stage.Completed? ==>
              Settled(printed.run.env.store, inv.store, {}, map[id := quantity].Keys, map[id := quantity])
  {
    CompletedSaleConsumesStock(repo, invoiceId, now, inv, sched);
  }

  /** Adding an item already reserves its stock, and printing reserves it a
      second time before confirming only that second reservation: after an
      item-less invoice gets one item and is printed, the product has sold
      the quantity and still holds it reserved. */
  lemma AddThenPrintHoldsFirstReservation(repo: InvoiceRepo, invoiceId: int, productId: int, quantity: int,
                                          now: int, inv: Inventory, sched: Schedule)
    requires ValidSchedule(sched) && invoiceId in repo
    requires repo[invoiceId].status == Open && repo[invoiceId].items == []
    requires NoNegativeReservations(inv.store) && inv.config.failureMode != "confirm"
    ensures var added := AddInvoiceItem(repo, invoiceId, productId, quantity, inv, Serve);
            var printed := PrintInvoice(added.invoices, invoiceId, now, added.run.env, Serve, sched);
            added.err.None? && printed.stage.Completed? ==>
              && productId in inv.store.rows && productId in printed.run.env.store.rows
              && printed.run.env.store.rows[productId].stock == inv.store.rows[productId].stock - quantity
              && printed.run.env.store.rows[productId].reservedStock
                 == inv.store.rows[productId].reservedStock + quantity
  {
    var added := AddInvoiceItem(repo, invoiceId, productId, quantity, inv, Serve);
    if added.err.None? {
      AddedSingleItem(repo, invoiceId, productId, quantity, inv);
      SingleProductSale(added.invoices, invoiceId, productId, quantity, now, added.run.env, sched);
      var printed := PrintInvoice(added.invoices, invoiceId, now, added.run.env, Serve, sched);
      if printed.stage.Completed? {
        SoleSale(printed.run.env.store, added.run.env.store, productId, quantity);
      }
    }
  }

  // A concrete invoice naming product 1 twice, against a table holding
  // only product 1.

  const Widget := Row("widget", 100, 10, 0, 1, 0)

  function TableHolding(reserved: int, version: int): Store {
    Store(map[1 := Widget.(reservedStock := reserved, version := version)], 2)
  }

  function Backend(reserved: int, version: int): Inventory {
    Inventory(ProductService.Config(""), TableHolding(reserved, version))
  }

  const RepeatedItems := [InvoiceItem(1, 7, 1, 2, 100, "widget"), InvoiceItem(2, 7, 1, 3, 100, "widget"),
                          InvoiceItem(3, 7, 2, 1, 50, "gadget")]

  /** A reserve of product 1 that fits its available stock is accepted and
      moves only its reservation and version. */
  lemma WidgetReserveAccepted(reserved: int, version: int, quantity: int)
    requires 0 < quantity && 0 <= reserved && reserved + quantity <= Widget.stock
    ensures Serve(Backend(reserved, version), Reserve(1, quantity))
            == (Backend(reserved + quantity, version + 1), Answered(StatusOK, None))
  {
    var step := ProductService.ReserveStock(ProductService.Config(""), TableHolding(reserved, version), 1, quantity);
    assert "" != "reserve";
    assert step.outcome.Pass?;
    assert step.store.rows == TableHolding(reserved + quantity, version + 1).rows;
  }

  /** A reserve of a product the table does not hold is answered with 500. */
  lemma MissingProductRejected(reserved: int, version: int, quantity: int)
    requires 0 < quantity
    ensures Serve(Backend(reserved, version), Reserve(2, quantity))
            == (Backend(reserved, version), Answered(StatusInternalServerError, None))
  {
  }

  /** A cancel of at most the reserved quantity of product 1 is accepted. */
  lemma WidgetCancelAccepted(reserved: int, version: int, quantity: int)
    requires quantity <= reserved
    ensures Serve(Backend(reserved, version), Cancel(1, quantity)).0 == Backend(reserved - quantity, version + 1)
  {
    assert Serve(Backend(reserved, version), Cancel(1, quantity)).0.store.rows
           == TableHolding(reserved - quantity, version + 1).rows;
  }

  lemma RepeatedItemsWorkingSets()
    ensures WorkingSet(RepeatedItems[..0]) == map[]
    ensures WorkingSet(RepeatedItems[..1]) == map[1 := 2]
    ensures WorkingSet(RepeatedItems[..2]) == map[1 := 3]
  {
    WorkingSetStep(RepeatedItems, 0);
    WorkingSetStep(RepeatedItems, 1);
  }

  lemma LeakCompensation(pick: Pick)
    requires Picks(pick)
    ensures CancelEach({1}, map[1 := 3], pick, Backend(5, 3), Serve).env == Backend(2, 4)
  {
    assert pick({1}) == 1;
    assert {1} - {1} == {};
    WidgetCancelAccepted(5, 3, 3);
  }

  lemma LeakAtThirdItem(pick: Pick)
    requires Picks(pick)
    ensures var r := ReserveItems(RepeatedItems, 2, WorkingSet(RepeatedItems[..2]), pick, Backend(5, 3), Serve);
            r.ReserveFailed? && r.failedAt == 2 && r.env == Backend(2, 4)
  {
    RepeatedItemsWorkingSets();
    assert map[1 := 3].Keys == {1};
    MissingProductRejected(5, 3, 1);
    LeakCompensation(pick);
  }

  lemma LeakAtSecondItem(pick: Pick)
    requires Picks(pick)
    ensures var r := ReserveItems(RepeatedItems, 1, WorkingSet(RepeatedItems[..1]), pick, Backend(2, 2), Serve);
            r.ReserveFailed? && r.failedAt == 2 && r.env == Backend(2, 4)
  {
    RepeatedItemsWorkingSets();
    WidgetReserveAccepted(2, 2, 3);
    LeakAtThirdItem(pick);
  }

  /** The reserve loop over the repeated items fails at the third item and
      leaves 2 units of product 1 reserved. */
  lemma RepeatedItemsReserve(pick: Pick)
    requires Picks(pick)
    ensures var r := ReserveItems(RepeatedItems, 0, WorkingSet(RepeatedItems[..0]), pick, Backend(0, 1), Serve);
            r.ReserveFailed? && r.failedAt == 2 && r.env == Backend(2, 4)
  {
    RepeatedItemsWorkingSets();
    WidgetReserveAccepted(0, 1, 2);
    LeakAtSecondItem(pick);
  }

  /** Without distinct products the restoration fails: the working set keeps
      only the last quantity per product, so when a later reserve fails the
      compensation releases 3 of the 5 units reserved for product 1 and the
      other 2 stay held. */
  lemma RepeatedProductLeaksReservation(repo: InvoiceRepo, id: int, now: int, sched: Schedule)
    requires ValidSchedule(sched)
    requires id in repo && repo[id].status == Open && repo[id].items == RepeatedItems
    ensures var r := PrintInvoice(repo, id, now, Backend(0, 1), Serve, sched);
            && r.stage == ReserveFailedAt(2)
            && r.run.env == Backend(2, 4)
            && !Restored(r.run.env.store, TableHolding(0, 1))
  {
    RepeatedItemsReserve(sched.reserveCompensation);
    RepeatedItemsWorkingSets();
    PrintFollowsPhases(repo, id, now, Backend(0, 1), Serve, sched);
    assert TableHolding(2, 4).rows[1].reservedStock != TableHolding(0, 1).rows[1].reservedStock;
  }
}

=== FILE: inventory_client.dfy ===
/** The billing service's view of the inventory service: the four remote calls
    it issues, the replies it can get back, and how each helper turns a reply
    into the error it returns. HTTP and JSON mechanics are reduced to a status
    code and, for the product lookup, a decoded body (`None` when the body
    could not be decoded). */
module InventoryClient {
  import opened Wrappers
  import Invoices

  /** The product fields the lookup decodes. */
  datatype ProductInfo = ProductInfo(id: int, name: string, price: int, stock: int)

  datatype Call =
    | Lookup(productId: int)
    | Reserve(productId: int, quantity: int)
    | Confirm(productId: int, quantity: int)
    | Cancel(productId: int, quantity: int)

  /** What came back from one remote call: nothing (connection refused,
      timeout) or an HTTP status with, for a lookup, its decoded body. */
  datatype Reply = Unreachable | Answered(status: int, body: Option<ProductInfo>)

  /** The errors the billing application returns; `InvoiceFailure` carries an error
      of the invoice aggregate or its repository. */
  datatype BillingError =
    | InventoryService
    | ProductNotFound
    | StockReservation
    | StockConfirmation
    | InsufficientStock
    | InvalidQuantity
    | ReserveRejected(status: int)
    | MalformedResponse
    | InvoiceFailure(cause: Invoices.InvoiceError)

  const StatusOK := 200
  const StatusNotFound := 404

  /** The product lookup: success needs a 200 with a decodable body whose
      stock covers the requested quantity. */
  function LookupOutcome(reply: Reply, quantity: int): (r: Result<ProductInfo, BillingError>)
    ensures r.Ok? <==> reply.Answered? && reply.status == StatusOK && reply.body.Some?
                       && reply.body.value.stock >= quantity
    ensures r.Ok? ==> r.value == reply.body.value
    ensures reply.Unreachable? ==> r == Err(InventoryService)
    ensures reply.Answered? && reply.status == StatusNotFound ==> r == Err(ProductNotFound)
    ensures reply.Answered? && reply.status !in {StatusOK, StatusNotFound} ==> r == Err(InventoryService)
    ensures reply.Answered? && reply.status == StatusOK && reply.body.None? ==> r == Err(MalformedResponse)
    ensures (reply.Answered? && reply.status == StatusOK && reply.body.Some?
             && reply.body.value.stock < quantity) ==> r == Err(StockReservation)
  {
    match reply
    case Unreachable => Err(InventoryService)
    case Answered(status, body) =>
      if status == StatusNotFound then Err(ProductNotFound)
      else if status != StatusOK then Err(InventoryService)
      else if body.None? then Err(MalformedResponse)
      else if body.value.stock < quantity then Err(StockReservation)
      else Ok(body.value)
  }

  /** Reserving: any status other than 200 is an error carrying the status. */
  function ReserveOutcome(reply: Reply): (r: Outcome<BillingError>)
    ensures r.Pass? <==> reply.Answered? && reply.status == StatusOK
    ensures reply.Unreachable? ==> r == Fail(InventoryService)
    ensures reply.Answered? && reply.status != StatusOK ==> r == Fail(ReserveRejected(reply.status))
  {
    match reply
    case Unreachable => Fail(InventoryService)
    case Answered(status, _) => if status != StatusOK then Fail(ReserveRejected(status)) else Pass
  }

  /** Confirming: every failure is reported as an inventory-service error. */
  function ConfirmOutcome(reply: Reply): (r: Outcome<BillingError>)
    ensures r.Pass? <==> reply.Answered? && reply.status == StatusOK
    ensures r.Fail? ==> r.error == InventoryService
  {
    match reply
    case Unreachable => Fail(InventoryService)
    case Answered(status, _) => if status != StatusOK then Fail(InventoryService) else Pass
  }

  /** The cancel helper issues its request only for a positive quantity. */
  predicate SendsCancel(quantity: int) {
    quantity > 0
  }

  /** Cancelling: a non-positive quantity fails before any call is made;
      otherwise only an unreachable service is an error, and a non-200
      answer is treated as success. */
  function CancelOutcome(quantity: int, reply: Reply): (r: Outcome<BillingError>)
    ensures r.Pass? <==> quantity > 0 && reply.Answered?
    ensures quantity <= 0 ==> r == Fail(InvalidQuantity)
    ensures quantity > 0 && reply.Unreachable? ==> r == Fail(InventoryService)
  {
    if !SendsCancel(quantity) then Fail(InvalidQuantity)
    else match reply
      case Unreachable => Fail(InventoryService)
      case Answered(_, _) => Pass
  }
}

=== FILE: invoice.dfy ===
/** The invoice aggregate: an ordered list of priced line items, a derived
    total, and a one-way Open to Closed transition guarded by "not already
    closed" and "has items". Money is whole cents; `now` stands for the clock. */
module Invoices {
  import opened Wrappers

  datatype Status = Open | Closed

  datatype InvoiceError = InvalidStatus | AlreadyClosed | EmptyInvoice | NotFound

  /** `price` and `name` are snapshots taken when the item was added. */
  datatype InvoiceItem = InvoiceItem(
    id: int,
    invoiceId: int,
    productId: int,
    quantity: int,
    price: int,
    name: string)

  datatype Invoice = Invoice(
    id: int,
    number: string,
    status: Status,
    createdAt: int,
    closedAt: Option<int>,
    items: seq<InvoiceItem>,
    totalValue: int)

  datatype Closing = Closing(invoice: Invoice, outcome: Outcome<InvoiceError>)

  function Subtotal(item: InvoiceItem): int {
    item.quantity * item.price
  }

  /** Reference definition of the invoice total: the sum of the subtotals. */
  function Total(items: seq<InvoiceItem>): int {
    if |items| == 0 then 0 else Total(items[..|items| - 1]) + Subtotal(items[|items| - 1])
  }

  /** The aggregate's invariants: the total is derived from the items, a
      closing time is recorded exactly for closed invoices, and only an
      invoice with items can be closed. */
  predicate Consistent(inv: Invoice) {
    && inv.totalValue == Total(inv.items)
    && (inv.status == Closed <==> inv.closedAt.Some?)
    && (inv.status == Closed ==> |inv.items| > 0)
  }

  lemma {:induction false} TotalAppend(items: seq<InvoiceItem>, item: InvoiceItem)
    ensures Total(items + [item]) == Total(items) + Subtotal(item)
  {
    assert (items + [item])[..|items|] == items;
  }

  function NewInvoice(number: string, now: int): (r: Invoice)
    ensures r.number == number && r.status == Open && r.createdAt == now
    ensures r.items == [] && r.totalValue == 0 && r.closedAt == None
    ensures Consistent(r)
  {
    Invoice(0, number, Open, now, None, [], 0)
  }

  /** Recomputes the total the way the Go code does, one item at a time from
      the front; only the total changes. */
  method CalculateTotal(inv: Invoice) returns (r: Invoice)
    ensures r.totalValue == Total(inv.items)
    ensures r.(totalValue := inv.totalValue) == inv
  {
    var total := 0;
    var i := 0;
    while i < |inv.items|
      invariant 0 <= i <= |inv.items|
      invariant total == Total(inv.items[..i])
    {
      assert inv.items[..i + 1] == inv.items[..i] + [inv.items[i]];
      TotalAppend(inv.items[..i], inv.items[i]);
      total := total + Subtotal(inv.items[i]);
      i := i + 1;
    }
    assert inv.items[..i] == inv.items;
    r := inv.(totalValue := total);
  }

  /** Appends one item (no closed-check here) and recomputes the total. */
  method AddItem(inv: Invoice, productId: int, quantity: int, price: int, name: string)
    returns (r: Invoice, item: InvoiceItem)
    ensures item.productId == productId && item.quantity == quantity
    ensures item.price == price && item.name == name
    ensures r.items == inv.items + [item]
    ensures r.totalValue == Total(r.items)
    ensures r.status == inv.status && r.closedAt == inv.closedAt
    ensures r.id == inv.id && r.number == inv.number && r.createdAt == inv.createdAt
    ensures Consistent(inv) ==> Consistent(r) && r.totalValue == inv.totalValue + quantity * price
  {
    item := InvoiceItem(0, 0, productId, quantity, price, name);
    TotalAppend(inv.items, item);
    r := CalculateTotal(inv.(items := inv.items + [item]));
  }

  function Close(inv: Invoice, now: int): (r: Closing)
    ensures inv.status == Closed ==> r == Closing(inv, Fail(AlreadyClosed))
    ensures inv.status == Open && |inv.items| == 0 ==> r == Closing(inv, Fail(EmptyInvoice))
    ensures r.outcome.Pass? <==> inv.status == Open && |inv.items| > 0
    ensures r.outcome.Pass? ==> r.invoice.status == Closed && r.invoice.closedAt == Some(now)
    ensures r.invoice.items == inv.items && r.invoice.totalValue == inv.totalValue
    ensures r.invoice.(status := inv.status, closedAt := inv.closedAt) == inv
    ensures Consistent(inv) ==> Consistent(r.invoice)
  {
    if inv.status.Closed? then Closing(inv, Fail(AlreadyClosed))
    else if |inv.items| == 0 then Closing(inv, Fail(EmptyInvoice))
    else Closing(inv.(status := Closed, closedAt := Some(now)), Pass)
  }

  /** Closing is one-way: once an invoice has been closed, every further
      close fails with the same error and leaves the closing time and the
      total as they were. */
  lemma CloseIsFinal(inv: Invoice, first: int, later: int)
    requires Close(inv, first).outcome.Pass?
    ensures var closed := Close(inv, first).invoice;
            Close(closed, later) == Closing(closed, Fail(AlreadyClosed))
            && closed.closedAt == Some(first)
  {
  }
}

=== FILE: invoice_service.dfy ===
/** The billing application service: adding an item to an invoice and the
    finalize-invoice saga (reserve every item, confirm every reservation,
    close the invoice), with its compensating cancels.

    The inventory service is a parameter: `remote` answers one call in some
    environment `E` and yields the environment after it. Any such function is
    an admissible oracle of outcomes; `InventoryBackend` instantiates it with
    the inventory service model. Every run records the calls it issued, in
    order, so that properties can speak of which calls were made.

    The working set is keyed by product id; the Go code iterates it with
    `range`, whose order is unspecified and differs from loop to loop. Each
    such loop takes a `Pick`: from the keys not yet visited it names the one
    visited next. Every visiting order of a key set is produced by some
    `Pick`, so a property proved for every valid schedule holds for every
    iteration order. */
module InvoiceService {
  import opened Wrappers
  import opened Invoices
  import opened InventoryClient

  /** The invoices table with its item rows, keyed by invoice id. */
  type InvoiceRepo = map<int, Invoice>

  type Remote<!E> = (E, Call) -> (E, Reply)

  type Pick = set<int> -> int

  ghost predicate Picks(pick: Pick) {
    forall ks: set<int> :: ks != {} ==> pick(ks) in ks
  }

  /** The iteration orders of the three map loops of one saga run. */
  datatype Schedule = Schedule(reserveCompensation: Pick, confirmOrder: Pick, confirmCompensation: Pick)

  ghost predicate ValidSchedule(sched: Schedule) {
    Picks(sched.reserveCompensation) && Picks(sched.confirmOrder) && Picks(sched.confirmCompensation)
  }

  /** The inventory environment and every call issued so far. */
  datatype Run<E> = Run(env: E, calls: seq<Call>)

  /** The reserve loop's end: the reserve calls it issued and, when one
      failed, the compensating cancels that followed. */
  datatype ReservePhase<E> =
    | AllReserved(env: E, reserves: seq<Call>)
    | ReserveFailed(env: E, err: BillingError, failedAt: nat, reserves: seq<Call>, cancels: seq<Call>)

  /** The confirm loop's end: the keys confirmed in the order visited, the
      confirm calls issued and, when one failed, the cancels that followed. */
  datatype ConfirmPhase<E> =
    | AllConfirmed(env: E, order: seq<int>, confirms: seq<Call>)
    | ConfirmFailed(env: E, productId: int, confirmed: seq<int>, confirms: seq<Call>, cancels: seq<Call>)

  /** Where a saga run stopped; the error alone does not say. */
  datatype Stage =
    | Rejected
    | ReserveFailedAt(index: nat)
    | ConfirmFailedFor(productId: int, confirmed: seq<int>)
    | CloseFailed
    | Completed(order: seq<int>)

  datatype PrintResult<E> = PrintResult(err: Option<BillingError>, invoices: InvoiceRepo, run: Run<E>, stage: Stage)

  datatype AddResult<E> = AddResult(err: Option<BillingError>, invoices: InvoiceRepo, run: Run<E>)

  // ---------------------------------------------------------------------
  // Calls and working set

  function ReserveCalls(items: seq<InvoiceItem>): seq<Call> {
    seq(|items|, j requires 0 <= j < |items| => Reserve(items[j].productId, items[j].quantity))
  }

  function ConfirmCalls(ids: seq<int>, ws: map<int, int>): seq<Call>
    requires forall i | 0 <= i < |ids| :: ids[i] in ws
  {
    seq(|ids|, j requires 0 <= j < |ids| => Confirm(ids[j], ws[ids[j]]))
  }

  /** The working set after reserving `items` in order: each product id maps
      to a quantity, a later item overwriting an earlier one. */
  function WorkingSet(items: seq<InvoiceItem>): map<int, int> {
    if |items| == 0 then map[]
    else WorkingSet(items[..|items| - 1])[items[|items| - 1].productId := items[|items| - 1].quantity]
  }

  predicate Distinct(ids: seq<int>) {
    forall i, j | 0 <= i < j < |ids| :: ids[i] != ids[j]
  }

  /** `order` visits every key exactly once. */
  ghost predicate Enumerates(order: seq<int>, keys: set<int>) {
    && Distinct(order)
    && (forall i | 0 <= i < |order| :: order[i] in keys)
    && (forall k | k in keys :: k in order)
  }

  /** `seg` is one compensation sweep over `keys`: a cancel of the recorded
      quantity for every key whose quantity is positive, no other call, and
      no product cancelled twice. */
  ghost predicate Compensates(seg: seq<Call>, keys: set<int>, ws: map<int, int>) {
    && (forall i | 0 <= i < |seg| ::
          seg[i].Cancel? && seg[i].productId in keys && seg[i].productId in ws
          && seg[i].quantity == ws[seg[i].productId] && seg[i].quantity > 0)
    && (forall k | k in keys && k in ws && ws[k] > 0 :: Cancel(k, ws[k]) in seg)
    && (forall i, j | 0 <= i < j < |seg| :: seg[i].productId != seg[j].productId)
  }

  /** Each product id in the working set is that of some item, with the
      quantity of the last item naming it. */
  lemma {:induction false} WorkingSetIsLastWrite(items: seq<InvoiceItem>)
    ensures forall k :: k in WorkingSet(items) <==> exists j :: 0 <= j < |items| && items[j].productId == k
    ensures forall j | 0 <= j < |items| ::
              (forall j' | j < j' < |items| :: items[j'].productId != items[j].productId)
              ==> WorkingSet(items)[items[j].productId] == items[j].quantity
  {
    if |items| > 0 {
      var init := items[..|items| - 1];
      WorkingSetIsLastWrite(init);
      forall k | k in WorkingSet(items)
        ensures exists j :: 0 <= j < |items| && items[j].productId == k
      {
        if k != items[|items| - 1].productId {
          var j :| 0 <= j < |init| && init[j].productId == k;
          assert items[j].productId == k;
        }
      }
    }
  }

  lemma WorkingSetStep(items: seq<InvoiceItem>, i: nat)
    requires i < |items|
    ensures WorkingSet(items[..i + 1]) == WorkingSet(items[..i])[items[i].productId := items[i].quantity]
  {
    assert items[..i + 1][..i] == items[..i];
  }

  lemma ReserveCallsCons(items: seq<InvoiceItem>, i: nat, j: nat)
    requires i < j <= |items|
    ensures ReserveCalls(items[i..j]) == [Reserve(items[i].productId, items[i].quantity)] + ReserveCalls(items[i + 1..j])
  {
  }

  lemma ConfirmCallsCons(k: int, ids: seq<int>, ws: map<int, int>)
    requires k in ws && forall i | 0 <= i < |ids| :: ids[i] in ws
    ensures ConfirmCalls([k] + ids, ws) == [Confirm(k, ws[k])] + ConfirmCalls(ids, ws)
  {
  }

  /** A cancel of `k` in front of a sweep over the other keys is a sweep over
      all of them. */
  lemma CompensatesCons(k: int, keys: set<int>, ws: map<int, int>, rest: seq<Call>)
    requires k in keys && keys <= ws.Keys && ws[k] > 0
    requires Compensates(rest, keys - {k}, ws)
    ensures Compensates([Cancel(k, ws[k])] + rest, keys, ws)
  {
    var seg := [Cancel(k, ws[k])] + rest;
    forall i, j | 0 <= i < j < |seg|
      ensures seg[i].productId != seg[j].productId
    {
      if i == 0 {
        assert seg[j] == rest[j - 1];
      }
    }
  }

  // ---------------------------------------------------------------------
  // The loops of the saga

  /** The compensation loop: a best-effort cancel for every key, in the
      order `pick` chooses. A quantity the client would not send (see
      `CancelOutcome`) issues no call; the outcomes are ignored. */
  function CancelEach<E>(keys: set<int>, ws: map<int, int>, pick: Pick, env: E, remote: Remote<E>): (r: Run<E>)
    requires keys <= ws.Keys && Picks(pick)
    ensures Compensates(r.calls, keys, ws)
    decreases keys
  {
    if keys == {} then Run(env, [])
    else
      var k := pick(keys);
      if !SendsCancel(ws[k]) then CancelEach(keys - {k}, ws, pick, env, remote)
      else
        var (env', _) := remote(env, Cancel(k, ws[k]));
        var rest := CancelEach(keys - {k}, ws, pick, env', remote);
        CompensatesCons(k, keys, ws, rest.calls);
        Run(rest.env, [Cancel(k, ws[k])] + rest.calls)
  }

  /** The reserve loop from item `i` on, with `ws` the working set so far.
      The first failed reserve triggers compensation for the working set as
      it stands and ends the phase. */
  function ReserveItems<E>(items: seq<InvoiceItem>, i: nat, ws: map<int, int>, pick: Pick,
                           env: E, remote: Remote<E>): (r: ReservePhase<E>)
    requires i <= |items| && ws == WorkingSet(items[..i]) && Picks(pick)
    ensures r.AllReserved? ==> r.reserves == ReserveCalls(items[i..])
    ensures r.ReserveFailed? ==>
              && i <= r.failedAt < |items|
              && r.reserves == ReserveCalls(items[i..r.failedAt + 1])
              && Compensates(r.cancels, WorkingSet(items[..r.failedAt]).Keys, WorkingSet(items[..r.failedAt]))
              && (r.err == InventoryService || r.err.ReserveRejected?)
    decreases |items| - i
  {
    if i == |items| then AllReserved(env, [])
    else
      var item := items[i];
      var call := Reserve(item.productId, item.quantity);
      var (env', reply) := remote(env, call);
      match ReserveOutcome(reply)
      case Fail(err) =>
        var comp := CancelEach(ws.Keys, ws, pick, env', remote);
        assert ReserveCalls(items[i..i + 1]) == [call];
        ReserveFailed(comp.env, err, i, [call], comp.calls)
      case Pass =>
        WorkingSetStep(items, i);
        match ReserveItems(items, i + 1, ws[item.productId := item.quantity], pick, env', remote)
        case AllReserved(env'', reserves) =>
          ReserveCallsCons(items, i, |items|);
          AllReserved(env'', [call] + reserves)
        case ReserveFailed(env'', err, k, reserves, cancels) =>
          ReserveCallsCons(items, i, k + 1);
          ReserveFailed(env'', err, k, [call] + reserves, cancels)
  }

  /** One round of the reserve loop: a rejected reserve ends it in the
      compensation's state, an accepted one hands over to the next item. */
  lemma ReserveItemsStep<E>(items: seq<InvoiceItem>, i: nat, ws: map<int, int>, ws': map<int, int>,
                            pick: Pick, env: E, remote: Remote<E>)
    requires i < |items| && ws == WorkingSet(items[..i]) && Picks(pick)
    requires ws' == ws[items[i].productId := items[i].quantity] && ws' == WorkingSet(items[..i + 1])
    ensures var out := remote(env, Reserve(items[i].productId, items[i].quantity));
            var r := ReserveItems(items, i, ws, pick, env, remote);
            && (ReserveOutcome(out.1).Fail? ==>
                  && r.ReserveFailed? && r.failedAt == i && r.err == ReserveOutcome(out.1).error
                  && r.env == CancelEach(ws.Keys, ws, pick, out.0, remote).env)
            && (ReserveOutcome(out.1).Pass? ==>
                  var rest := ReserveItems(items, i + 1, ws', pick, out.0, remote);
                  && r.env == rest.env && r.AllReserved? == rest.AllReserved?
                  && (rest.ReserveFailed? ==> r.ReserveFailed? && r.failedAt == rest.failedAt && r.err == rest.err))
  {
  }

  /** The inventory environment after the reserves of items `i` to `k - 1`. */
  function EnvAfterReserves<E>(items: seq<InvoiceItem>, i: nat, k: nat, env: E, remote: Remote<E>): E
    requires i <= k <= |items|
    decreases k - i
  {
    if i == k then env
    else EnvAfterReserves(items, i + 1, k, remote(env, Reserve(items[i].productId, items[i].quantity)).0, remote)
  }

  /** A failed reserve loop returns the error of the reserve it failed on:
      the one issued for item `failedAt` after every earlier reserve was
      accepted. */
  lemma {:induction false} ReserveErrorIsFailingReply<E>(items: seq<InvoiceItem>, i: nat, ws: map<int, int>,
                                                        pick: Pick, env: E, remote: Remote<E>)
    requires i <= |items| && ws == WorkingSet(items[..i]) && Picks(pick)
    ensures var r := ReserveItems(items, i, ws, pick, env, remote);
            r.ReserveFailed? ==>
              var k := r.failedAt;
              var reply := remote(EnvAfterReserves(items, i, k, env, remote),
                                  Reserve(items[k].productId, items[k].quantity)).1;
              ReserveOutcome(reply).Fail? && r.err == ReserveOutcome(reply).error
    decreases |items| - i
  {
    if i < |items| {
      WorkingSetStep(items, i);
      var ws' := ws[items[i].productId := items[i].quantity];
      ReserveItemsStep(items, i, ws, ws', pick, env, remote);
      var out := remote(env, Reserve(items[i].productId, items[i].quantity));
      if ReserveOutcome(out.1).Pass? {
        ReserveErrorIsFailingReply(items, i + 1, ws', pick, out.0, remote);
      }
    }
  }

  /** The reserve loop stops at the first rejected reserve: every reserve
      before `failedAt` (before the end, when none failed) was accepted, and
      a loop that reserved everything ends where those reserves left the
      inventory. */
  lemma {:induction false} EarlierReservesAccepted<E>(items: seq<InvoiceItem>, i: nat, ws: map<int, int>,
                                                     pick: Pick, env: E, remote: Remote<E>)
    requires i <= |items| && ws == WorkingSet(items[..i]) && Picks(pick)
    ensures var r := ReserveItems(items, i, ws, pick, env, remote);
            var last := if r.ReserveFailed? then r.failedAt else |items|;
            && (forall j | i <= j < last ::
                  ReserveOutcome(remote(EnvAfterReserves(items, i, j, env, remote),
                                        Reserve(items[j].productId, items[j].quantity)).1).Pass?)
            && (r.AllReserved? ==> r.env == EnvAfterReserves(items, i, |items|, env, remote))
    decreases |items| - i
  {
    if i < |items| {
      WorkingSetStep(items, i);
      var ws' := ws[items[i].productId := items[i].quantity];
      ReserveItemsStep(items, i, ws, ws', pick, env, remote);
      var out := remote(env, Reserve(items[i].productId, items[i].quantity));
      if ReserveOutcome(out.1).Pass? {
        EarlierReservesAccepted(items, i + 1, ws', pick, out.0, remote);
        var r := ReserveItems(items, i, ws, pick, env, remote);
        var last := if r.ReserveFailed? then r.failedAt else |items|;
        forall j | i < j < last
          ensures ReserveOutcome(remote(EnvAfterReserves(items, i, j, env, remote),
                                        Reserve(items[j].productId, items[j].quantity)).1).Pass?
        {
          assert EnvAfterReserves(items, i, j, env, remote) == EnvAfterReserves(items, i + 1, j, out.0, remote);
        }
      }
    }
  }

  /** The confirm loop over the keys not yet confirmed. The first failed
      confirm cancels every other key of the working set (confirmed ones
      included) and never the key that failed. */
  function ConfirmEach<E>(keys: set<int>, ws: map<int, int>, sched: Schedule, env: E,
                          remote: Remote<E>): (r: ConfirmPhase<E>)
    requires keys <= ws.Keys && ValidSchedule(sched)
    ensures r.AllConfirmed? ==> Enumerates(r.order, keys) && r.confirms == ConfirmCalls(r.order, ws)
    ensures r.ConfirmFailed? ==>
              && r.productId in keys && r.productId !in r.confirmed
              && Distinct(r.confirmed) && (forall i | 0 <= i < |r.confirmed| :: r.confirmed[i] in keys)
              && r.confirms == ConfirmCalls(r.confirmed, ws) + [Confirm(r.productId, ws[r.productId])]
              && Compensates(r.cancels, ws.Keys - {r.productId}, ws)
    decreases keys
  {
    if keys == {} then AllConfirmed(env, [], [])
    else
      var k := sched.confirmOrder(keys);
      var call := Confirm(k, ws[k]);
      var (env', reply) := remote(env, call);
      if ConfirmOutcome(reply).Fail? then
        var comp := CancelEach(ws.Keys - {k}, ws, sched.confirmCompensation, env', remote);
        assert ConfirmCalls([], ws) == [];
        ConfirmFailed(comp.env, k, [], [call], comp.calls)
      else
        match ConfirmEach(keys - {k}, ws, sched, env', remote)
        case AllConfirmed(env'', order, confirms) =>
          ConfirmCallsCons(k, order, ws);
          AllConfirmed(env'', [k] + order, [call] + confirms)
        case ConfirmFailed(env'', p, confirmed, confirms, cancels) =>
          ConfirmCallsCons(k, confirmed, ws);
          ConfirmFailed(env'', p, [k] + confirmed, [call] + confirms, cancels)
  }

  /** One round of the confirm loop: a rejected confirm ends it with nothing
      confirmed, in the state the compensation leaves; an accepted one hands
      over to the remaining keys and is counted as confirmed first. */
  lemma ConfirmEachStep<E>(keys: set<int>, ws: map<int, int>, sched: Schedule, env: E, remote: Remote<E>)
    requires keys <= ws.Keys && keys != {} && ValidSchedule(sched)
    ensures var k := sched.confirmOrder(keys);
            var out := remote(env, Confirm(k, ws[k]));
            var r := ConfirmEach(keys, ws, sched, env, remote);
            && (ConfirmOutcome(out.1).Fail? ==>
                  && r.ConfirmFailed? && r.productId == k && r.confirmed == []
                  && r.env == CancelEach(ws.Keys - {k}, ws, sched.confirmCompensation, out.0, remote).env)
            && (ConfirmOutcome(out.1).Pass? ==>
                  var rest := ConfirmEach(keys - {k}, ws, sched, out.0, remote);
                  && r.env == rest.env && r.AllConfirmed? == rest.AllConfirmed?
                  && (rest.AllConfirmed? ==> r.order == [k] + rest.order)
                  && (rest.ConfirmFailed? ==> r.productId == rest.productId && r.confirmed == [k] + rest.confirmed))
  {
  }

  /** The inventory environment after confirming `ids` in order. */
  function EnvAfterConfirms<E>(ids: seq<int>, ws: map<int, int>, env: E, remote: Remote<E>): E
    requires forall i | 0 <= i < |ids| :: ids[i] in ws
    decreases |ids|
  {
    if ids == [] then env
    else EnvAfterConfirms(ids[1..], ws, remote(env, Confirm(ids[0], ws[ids[0]])).0, remote)
  }

  /** An accepted confirm of `k` in front of a run of accepted confirms is a
      longer run of accepted confirms, and ends where the shorter one does. */
  lemma {:induction false} AcceptedConfirmsCons<E>(k: int, ids: seq<int>, ws: map<int, int>, env: E,
                                                  remote: Remote<E>)
    requires k in ws && forall i | 0 <= i < |ids| :: ids[i] in ws
    requires ConfirmOutcome(remote(env, Confirm(k, ws[k])).1).Pass?
    requires var env' := remote(env, Confirm(k, ws[k])).0;
             forall j | 0 <= j < |ids| ::
               ConfirmOutcome(remote(EnvAfterConfirms(ids[..j], ws, env', remote), Confirm(ids[j], ws[ids[j]])).1).Pass?
    ensures var all := [k] + ids;
            && (forall j | 0 <= j < |all| ::
                  ConfirmOutcome(remote(EnvAfterConfirms(all[..j], ws, env, remote), Confirm(all[j], ws[all[j]])).1).Pass?)
            && EnvAfterConfirms(all, ws, env, remote) == EnvAfterConfirms(ids, ws, remote(env, Confirm(k, ws[k])).0, remote)
  {
    var all := [k] + ids;
    var env' := remote(env, Confirm(k, ws[k])).0;
    forall j | 0 <= j < |all|
      ensures ConfirmOutcome(remote(EnvAfterConfirms(all[..j], ws, env, remote), Confirm(all[j], ws[all[j]])).1).Pass?
    {
      if j == 0 {
        assert all[..0] == [];
      } else {
        assert all[..j][1..] == ids[..j - 1];
        assert EnvAfterConfirms(all[..j], ws, env, remote) == EnvAfterConfirms(ids[..j - 1], ws, env', remote);
        assert all[j] == ids[j - 1];
      }
    }
    assert all[1..] == ids;
  }

  /** The confirm loop's end is decided by the confirm replies. Every confirm
      along a completed order was accepted, and the loop ends where they left
      the inventory. On a failure every confirm before the failed one was
      accepted, and the failed one, issued after them, was rejected. */
  lemma {:induction false} ConfirmOutcomesDecide<E>(keys: set<int>, ws: map<int, int>, sched: Schedule, env: E,
                                                   remote: Remote<E>)
    requires keys <= ws.Keys && ValidSchedule(sched)
    ensures var r := ConfirmEach(keys, ws, sched, env, remote);
            var done := if r.AllConfirmed? then r.order else r.confirmed;
            && (forall j | 0 <= j < |done| ::
                  ConfirmOutcome(remote(EnvAfterConfirms(done[..j], ws, env, remote),
                                        Confirm(done[j], ws[done[j]])).1).Pass?)
            && (r.AllConfirmed? ==> r.env == EnvAfterConfirms(r.order, ws, env, remote))
            && (r.ConfirmFailed? ==>
                  ConfirmOutcome(remote(EnvAfterConfirms(r.confirmed, ws, env, remote),
                                        Confirm(r.productId, ws[r.productId])).1).Fail?)
    decreases keys
  {
    if keys != {} {
      ConfirmEachStep(keys, ws, sched, env, remote);
      var k := sched.confirmOrder(keys);
      var out := remote(env, Confirm(k, ws[k]));
      if ConfirmOutcome(out.1).Pass? {
        ConfirmOutcomesDecide(keys - {k}, ws, sched, out.0, remote);
        var rest := ConfirmEach(keys - {k}, ws, sched, out.0, remote);
        var done := if rest.AllConfirmed? then rest.order else rest.confirmed;
        AcceptedConfirmsCons(k, done, ws, env, remote);
      }
    }
  }

  // ---------------------------------------------------------------------
  // Invoice repository

  /** `UPDATE invoices SET status, closed_at, total_value WHERE id`: the item
      rows, number and creation time are not written. */
  function RepoUpdate(repo: InvoiceRepo, id: int, inv: Invoice): InvoiceRepo {
    if id in repo then
      repo[id := repo[id].(status := inv.status, closedAt := inv.closedAt, totalValue := inv.totalValue)]
    else repo
  }

  /** Inserting an item row: the invoice reads it back after its other items. */
  function RepoAddItem(repo: InvoiceRepo, item: InvoiceItem): InvoiceRepo {
    if item.invoiceId in repo then
      repo[item.invoiceId := repo[item.invoiceId].(items := repo[item.invoiceId].items + [item])]
    else repo
  }

  // ---------------------------------------------------------------------
  // The two service operations

  /** The finalize-invoice saga. */
  function PrintInvoice<E>(repo: InvoiceRepo, id: int, now: int, env: E, remote: Remote<E>,
                           sched: Schedule): (r: PrintResult<E>)
    requires ValidSchedule(sched)
    ensures id !in repo ==>
              r.err == Some(InvoiceFailure(Invoices.NotFound)) && r.invoices == repo && r.run.calls == []
    ensures id in repo && repo[id].status == Closed ==>
              r.err == Some(InvoiceFailure(AlreadyClosed)) && r.invoices == repo && r.run.calls == []
    ensures r.stage.Rejected? <==> id !in repo || repo[id].status == Closed
    ensures r.err.None? <==> r.stage.Completed?
    ensures r.invoices != repo ==> r.err.None?
    ensures r.stage.Completed? ==>
              && id in repo && repo[id].status == Open && |repo[id].items| > 0
              && r.invoices == repo[id := repo[id].(status := Closed, closedAt := Some(now))]
    ensures r.stage.Completed? ==>
              var ws := WorkingSet(repo[id].items);
              Enumerates(r.stage.order, ws.Keys)
              && r.run.calls == ReserveCalls(repo[id].items) + ConfirmCalls(r.stage.order, ws)
    ensures r.stage.ReserveFailedAt? ==>
              && id in repo && r.invoices == repo && r.stage.index < |repo[id].items|
              && r.err.Some? && (r.err.value == InventoryService || r.err.value.ReserveRejected?)
              && var items := repo[id].items;
                 var reserves := ReserveCalls(items[..r.stage.index + 1]);
                 var ws := WorkingSet(items[..r.stage.index]);
                 && |reserves| <= |r.run.calls| && r.run.calls[..|reserves|] == reserves
                 && Compensates(r.run.calls[|reserves|..], ws.Keys, ws)
    ensures r.stage.ConfirmFailedFor? ==>
              && id in repo && r.invoices == repo && r.err == Some(InventoryService)
              && var ws := WorkingSet(repo[id].items);
                 var p := r.stage.productId;
                 && p in ws && p !in r.stage.confirmed && Distinct(r.stage.confirmed)
                 && (forall k | k in r.stage.confirmed :: k in ws)
                 && var before := ReserveCalls(repo[id].items) + ConfirmCalls(r.stage.confirmed, ws)
                                  + [Confirm(p, ws[p])];
                    && |before| <= |r.run.calls| && r.run.calls[..|before|] == before
                    && Compensates(r.run.calls[|before|..], ws.Keys - {p}, ws)
    ensures r.stage.CloseFailed? ==>
              && id in repo && repo[id].items == [] && r.run.calls == []
              && r.err == Some(InvoiceFailure(EmptyInvoice)) && r.invoices == repo
  {
    if id !in repo then PrintResult(Some(InvoiceFailure(Invoices.NotFound)), repo, Run(env, []), Rejected)
    else
      var inv := repo[id];
      if inv.status == Closed then PrintResult(Some(InvoiceFailure(AlreadyClosed)), repo, Run(env, []), Rejected)
      else
        assert inv.items[..0] == [];
        assert inv.items[0..] == inv.items;
        match ReserveItems(inv.items, 0, map[], sched.reserveCompensation, env, remote)
        case ReserveFailed(env', err, k, reserves, cancels) =>
          assert inv.items[0..k + 1] == inv.items[..k + 1];
          PrintResult(Some(err), repo, Run(env', reserves + cancels), ReserveFailedAt(k))
        case AllReserved(env', reserves) =>
          var ws := WorkingSet(inv.items);
          match ConfirmEach(ws.Keys, ws, sched, env', remote)
          case ConfirmFailed(env'', p, confirmed, confirms, cancels) =>
            PrintResult(Some(InventoryService), repo, Run(env'', reserves + confirms + cancels),
                        ConfirmFailedFor(p, confirmed))
          case AllConfirmed(env'', order, confirms) =>
            var run := Run(env'', reserves + confirms);
            var closing := Close(inv, now);
            if closing.outcome.Fail? then
              assert ws == map[] by { WorkingSetIsLastWrite(inv.items); }
              PrintResult(Some(InvoiceFailure(closing.outcome.error)), repo, run, CloseFailed)
            else
              PrintResult(None, RepoUpdate(repo, id, closing.invoice), run, Completed(order))
  }

  /** Where a print of an open invoice ends, in terms of its two loops: it
      stops in the reserve phase exactly when the reserve loop fails, and then
      returns that loop's error (the failed reserve's own error) and its
      state; otherwise it runs the confirm loop on the full working set. */
  lemma PrintFollowsPhases<E>(repo: InvoiceRepo, id: int, now: int, env: E, remote: Remote<E>, sched: Schedule)
    requires ValidSchedule(sched) && id in repo && repo[id].status == Open
    ensures var items := repo[id].items;
            var ws := WorkingSet(items);
            var reserve := ReserveItems(items, 0, map[], sched.reserveCompensation, env, remote);
            var r := PrintInvoice(repo, id, now, env, remote, sched);
            && (r.stage.ReserveFailedAt? <==> reserve.ReserveFailed?)
            && (reserve.ReserveFailed? ==>
                  && r.err == Some(reserve.err) && r.stage == ReserveFailedAt(reserve.failedAt)
                  && r.run.env == reserve.env)
            && (reserve.AllReserved? ==>
                  var confirm := ConfirmEach(ws.Keys, ws, sched, reserve.env, remote);
                  && r.run.env == confirm.env
                  && (confirm.ConfirmFailed? ==> r.stage == ConfirmFailedFor(confirm.productId, confirm.confirmed))
                  && (confirm.AllConfirmed? ==> r.stage == Completed(confirm.order) || r.stage.CloseFailed?))
  {
    assert repo[id].items[..0] == [];
  }

  /** A print that fails while reserving returns the error of the reserve
      it failed on, unchanged: that of item `index`, issued after every
      earlier item's reserve was accepted. */
  lemma PrintReturnsFailingReserveError<E>(repo: InvoiceRepo, id: int, now: int, env: E, remote: Remote<E>,
                                           sched: Schedule)
    requires ValidSchedule(sched)
    ensures var r := PrintInvoice(repo, id, now, env, remote, sched);
            r.stage.ReserveFailedAt? ==>
              var items := repo[id].items;
              var k := r.stage.index;
              var reply := remote(EnvAfterReserves(items, 0, k, env, remote),
                                  Reserve(items[k].productId, items[k].quantity)).1;
              && ReserveOutcome(reply).Fail? && r.err == Some(ReserveOutcome(reply).error)
              && (forall j | 0 <= j < k ::
                    ReserveOutcome(remote(EnvAfterReserves(items, 0, j, env, remote),
                                          Reserve(items[j].productId, items[j].quantity)).1).Pass?)
  {
    if id in repo && repo[id].status == Open {
      assert repo[id].items[..0] == [];
      PrintFollowsPhases(repo, id, now, env, remote, sched);
      ReserveErrorIsFailingReply(repo[id].items, 0, map[], sched.reserveCompensation, env, remote);
      EarlierReservesAccepted(repo[id].items, 0, map[], sched.reserveCompensation, env, remote);
    }
  }

  /** A print gets past the reserve phase only when every reserve was
      accepted, and closes the invoice only when, after them, every confirm
      was accepted too. A print that fails while confirming had every
      confirm before the failed one accepted, and the failed one rejected. */
  lemma PrintConfirmOutcomesDecide<E>(repo: InvoiceRepo, id: int, now: int, env: E, remote: Remote<E>,
                                      sched: Schedule)
    requires ValidSchedule(sched)
    ensures var r := PrintInvoice(repo, id, now, env, remote, sched);
            r.stage.Completed? || r.stage.ConfirmFailedFor? ==>
              var items := repo[id].items;
              var ws := WorkingSet(items);
              var start := EnvAfterReserves(items, 0, |items|, env, remote);
              var done := if r.stage.Completed? then r.stage.order else r.stage.confirmed;
              && (forall j | 0 <= j < |items| ::
                    ReserveOutcome(remote(EnvAfterReserves(items, 0, j, env, remote),
                                          Reserve(items[j].productId, items[j].quantity)).1).Pass?)
              && (forall j | 0 <= j < |done| ::
                    ConfirmOutcome(remote(EnvAfterConfirms(done[..j], ws, start, remote),
                                          Confirm(done[j], ws[done[j]])).1).Pass?)
              && (r.stage.ConfirmFailedFor? ==>
                    ConfirmOutcome(remote(EnvAfterConfirms(done, ws, start, remote),
                                          Confirm(r.stage.productId, ws[r.stage.productId])).1).Fail?)
  {
    if id in repo && repo[id].status == Open {
      var items := repo[id].items;
      assert items[..0] == [];
      PrintFollowsPhases(repo, id, now, env, remote, sched);
      EarlierReservesAccepted(items, 0, map[], sched.reserveCompensation, env, remote);
      var reserve := ReserveItems(items, 0, map[], sched.reserveCompensation, env, remote);
      if reserve.AllReserved? {
        var ws := WorkingSet(items);
        ConfirmOutcomesDecide(ws.Keys, ws, sched, reserve.env, remote);
      }
    }
  }

  /** An item-less open invoice goes through both loops without a call and
      fails to close. */
  lemma EmptyInvoiceIsNotClosed<E>(repo: InvoiceRepo, id: int, now: int, env: E, remote: Remote<E>,
                                   sched: Schedule)
    requires ValidSchedule(sched)
    requires id in repo && repo[id].status == Open && repo[id].items == []
    ensures var r := PrintInvoice(repo, id, now, env, remote, sched);
            r.err == Some(InvoiceFailure(EmptyInvoice)) && r.run.calls == [] && r.invoices == repo
  {
    assert WorkingSet(repo[id].items) == map[];
  }

  /** `remote` with every cancel call answered by `cancels` instead: another
      route, another handler, or none at all. */
  function WithCancelHandler<E>(remote: Remote<E>, cancels: Remote<E>): Remote<E> {
    (e: E, c: Call) => if c.Cancel? then cancels(e, c) else remote(e, c)
  }

  /** The cancels a sweep issues depend only on the keys, the quantities and
      the visiting order, never on the inventory or its replies. */
  lemma {:induction false} CancelCallsIgnoreInventory<E>(keys: set<int>, ws: map<int, int>, pick: Pick,
                                                        env: E, remote: Remote<E>, env': E, remote': Remote<E>)
    requires keys <= ws.Keys && Picks(pick)
    ensures CancelEach(keys, ws, pick, env, remote).calls == CancelEach(keys, ws, pick, env', remote').calls
    decreases keys
  {
    if keys != {} {
      var k := pick(keys);
      if !SendsCancel(ws[k]) {
        CancelCallsIgnoreInventory(keys - {k}, ws, pick, env, remote, env', remote');
      } else {
        CancelCallsIgnoreInventory(keys - {k}, ws, pick, remote(env, Cancel(k, ws[k])).0, remote,
                                   remote'(env', Cancel(k, ws[k])).0, remote');
      }
    }
  }

  lemma {:induction false} ReserveItemsIgnoresCancelHandler<E>(items: seq<InvoiceItem>, i: nat, ws: map<int, int>,
                                                              pick: Pick, env: E, remote: Remote<E>,
                                                              cancels: Remote<E>)
    requires i <= |items| && ws == WorkingSet(items[..i]) && Picks(pick)
    ensures var a := ReserveItems(items, i, ws, pick, env, WithCancelHandler(remote, cancels));
            var b := ReserveItems(items, i, ws, pick, env, remote);
            && a.AllReserved? == b.AllReserved?
            && (a.AllReserved? ==> a == b)
            && (a.ReserveFailed? ==> a.(env := b.env) == b)
    decreases |items| - i
  {
    if i < |items| {
      var item := items[i];
      var (env', reply) := remote(env, Reserve(item.productId, item.quantity));
      if ReserveOutcome(reply).Fail? {
        CancelCallsIgnoreInventory(ws.Keys, ws, pick, env', WithCancelHandler(remote, cancels), env', remote);
      } else {
        WorkingSetStep(items, i);
        ReserveItemsIgnoresCancelHandler(items, i + 1, ws[item.productId := item.quantity], pick, env', remote,
                                         cancels);
      }
    }
  }

  lemma {:induction false} ConfirmEachIgnoresCancelHandler<E>(keys: set<int>, ws: map<int, int>, sched: Schedule,
                                                             env: E, remote: Remote<E>, cancels: Remote<E>)
    requires keys <= ws.Keys && ValidSchedule(sched)
    ensures var a := ConfirmEach(keys, ws, sched, env, WithCancelHandler(remote, cancels));
            var b := ConfirmEach(keys, ws, sched, env, remote);
            && a.AllConfirmed? == b.AllConfirmed?
            && (a.AllConfirmed? ==> a == b)
            && (a.ConfirmFailed? ==> a.(env := b.env) == b)
    decreases keys
  {
    if keys != {} {
      var k := sched.confirmOrder(keys);
      var (env', reply) := remote(env, Confirm(k, ws[k]));
      if ConfirmOutcome(reply).Fail? {
        CancelCallsIgnoreInventory(ws.Keys - {k}, ws, sched.confirmCompensation, env',
                                   WithCancelHandler(remote, cancels), env', remote);
      } else {
        ConfirmEachIgnoresCancelHandler(keys - {k}, ws, sched, env', remote, cancels);
      }
    }
  }

  /** Compensating cancels are fire-and-forget: however the inventory handles
      them (or fails to route them), the saga returns the same error, leaves
      the invoices in the same state, issues the same calls and stops at the
      same stage. A completed run issues no cancel, so it ends identically. */
  lemma CancelHandlingDoesNotMatter<E>(repo: InvoiceRepo, id: int, now: int, env: E, remote: Remote<E>,
                                       sched: Schedule, cancels: Remote<E>)
    requires ValidSchedule(sched)
    ensures var a := PrintInvoice(repo, id, now, env, WithCancelHandler(remote, cancels), sched);
            var b := PrintInvoice(repo, id, now, env, remote, sched);
            && a.err == b.err && a.invoices == b.invoices && a.run.calls == b.run.calls && a.stage == b.stage
            && (b.stage.Completed? ==> a == b)
  {
    if id in repo && repo[id].status == Open {
      var items := repo[id].items;
      assert items[..0] == [];
      ReserveItemsIgnoresCancelHandler(items, 0, map[], sched.reserveCompensation, env, remote, cancels);
      var phase := ReserveItems(items, 0, map[], sched.reserveCompensation, env, remote);
      if phase.AllReserved? {
        var ws := WorkingSet(items);
        ConfirmEachIgnoresCancelHandler(ws.Keys, ws, sched, phase.env, remote, cancels);
      }
    }
  }

  /** Adds an item after looking the product up and reserving its quantity;
      the item snapshots the looked-up price and name. */
  function AddInvoiceItem<E>(repo: InvoiceRepo, invoiceId: int, productId: int, quantity: int,
                             env: E, remote: Remote<E>): (r: AddResult<E>)
    ensures invoiceId !in repo ==>
              r.err == Some(InvoiceFailure(Invoices.NotFound)) && r.invoices == repo && r.run.calls == []
    ensures invoiceId in repo && repo[invoiceId].status == Closed ==>
              r.err == Some(InvoiceFailure(AlreadyClosed)) && r.invoices == repo && r.run.calls == []
    ensures r.err.Some? ==> r.invoices == repo
    ensures invoiceId in repo && repo[invoiceId].status == Open ==>
              var lookup := remote(env, Lookup(productId)).1;
              var reserve := remote(remote(env, Lookup(productId)).0, Reserve(productId, quantity)).1;
              && (LookupOutcome(lookup, quantity).Err? ==>
                    r.err == Some(ProductNotFound) && r.run.calls == [Lookup(productId)])
              && (LookupOutcome(lookup, quantity).Ok? ==>
                    r.run.calls == [Lookup(productId), Reserve(productId, quantity)])
              && (LookupOutcome(lookup, quantity).Ok? && ReserveOutcome(reserve).Fail? ==>
                    r.err == Some(StockReservation))
              && (r.err.None? <==> LookupOutcome(lookup, quantity).Ok? && ReserveOutcome(reserve).Pass?)
              && (r.err.None? ==>
                    var info := lookup.body.value;
                    var inv := repo[invoiceId];
                    r.invoices == repo[invoiceId := inv.(items := inv.items + [
                      InvoiceItem(0, invoiceId, productId, quantity, info.price, info.name)])])
  {
    if invoiceId !in repo then AddResult(Some(InvoiceFailure(Invoices.NotFound)), repo, Run(env, []))
    else if repo[invoiceId].status == Closed then AddResult(Some(InvoiceFailure(AlreadyClosed)), repo, Run(env, []))
    else
      var (env', lookupReply) := remote(env, Lookup(productId));
      match LookupOutcome(lookupReply, quantity)
      case Err(_) => AddResult(Some(ProductNotFound), repo, Run(env', [Lookup(productId)]))
      case Ok(info) =>
        var (env'', reserveReply) := remote(env', Reserve(productId, quantity));
        var run := Run(env'', [Lookup(productId), Reserve(productId, quantity)]);
        if ReserveOutcome(reserveReply).Fail? then AddResult(Some(StockReservation), repo, run)
        else
          var item := InvoiceItem(0, invoiceId, productId, quantity, info.price, info.name);
          var repo' := RepoAddItem(repo, item);
          AddResult(None, RepoUpdate(repo', invoiceId, repo'[invoiceId]), run)
  }
}

=== FILE: product.dfy ===
/** The inventory stock ledger entry: a product with its total stock, the part
    of it held by reservations, and an optimistic-concurrency version. The
    three guarded operations are pure step functions that return the product
    as it is after the call together with the error the call reported; on an
    error the product comes back unchanged, which is what the pointer receiver
    in the service sees. */
module StockLedger {
  import opened Wrappers

  datatype ProductError = InsufficientStock | InvalidStock | NotFound | ConcurrentUpdate

  /** Prices are whole cents; `createdAt` is an abstract clock reading. */
  datatype Product = Product(
    id: int,
    name: string,
    price: int,
    stock: int,
    reservedStock: int,
    version: int,
    createdAt: int)

  /** The product after a mutating call and the error that call returned. */
  datatype Step = Step(product: Product, outcome: Outcome<ProductError>)

  /** Units that are neither sold nor held by a reservation. */
  function Available(p: Product): int {
    p.stock - p.reservedStock
  }

  /** The ledger invariant: reservations never exceed what is owned. */
  predicate Valid(p: Product) {
    0 <= p.reservedStock <= p.stock
  }

  /** The columns no ledger operation may touch. */
  predicate SameIdentity(p: Product, p': Product) {
    p'.id == p.id && p'.name == p.name && p'.price == p.price && p'.createdAt == p.createdAt
  }

  function NewProduct(name: string, price: int, stock: int, now: int): (r: Result<Product, ProductError>)
    ensures r.Err? <==> stock < 0
    ensures r.Err? ==> r.error == InvalidStock
    ensures r.Ok? ==> r.value.name == name && r.value.price == price && r.value.createdAt == now
    ensures r.Ok? ==> r.value.stock == stock && r.value.reservedStock == 0 && r.value.version == 1
    ensures r.Ok? ==> Valid(r.value) && Available(r.value) == stock
  {
    if stock < 0 then Err(InvalidStock)
    else Ok(Product(0, name, price, stock, 0, 1, now))
  }

  function ReserveStock(p: Product, quantity: int): (r: Step)
    ensures r.outcome.Fail? <==> quantity > Available(p)
    ensures r.outcome.Fail? ==> r.outcome.error == InsufficientStock && r.product == p
    ensures r.outcome.Pass? ==> SameIdentity(p, r.product) && r.product.stock == p.stock
    ensures r.outcome.Pass? ==> r.product.reservedStock == p.reservedStock + quantity
    ensures r.outcome.Pass? ==> r.product.version == p.version + 1
    ensures Valid(p) && quantity >= 0 ==> Valid(r.product)
  {
    if quantity > Available(p) then Step(p, Fail(InsufficientStock))
    else Step(p.(reservedStock := p.reservedStock + quantity, version := p.version + 1), Pass)
  }

  function ConfirmReservation(p: Product, quantity: int): (r: Step)
    ensures r.outcome.Fail? <==> quantity > p.reservedStock
    ensures r.outcome.Fail? ==> r.outcome.error == InvalidStock && r.product == p
    ensures r.outcome.Pass? ==> SameIdentity(p, r.product)
    ensures r.outcome.Pass? ==> r.product.stock == p.stock - quantity
    ensures r.outcome.Pass? ==> r.product.reservedStock == p.reservedStock - quantity
    ensures r.outcome.Pass? ==> Available(r.product) == Available(p)
    ensures r.outcome.Pass? ==> r.product.version == p.version + 1
    ensures Valid(p) && quantity >= 0 ==> Valid(r.product)
  {
    if quantity > p.reservedStock then Step(p, Fail(InvalidStock))
    else Step(p.(stock := p.stock - quantity, reservedStock := p.reservedStock - quantity,
                 version := p.version + 1), Pass)
  }

  function CancelReservation(p: Product, quantity: int): (r: Step)
    ensures r.outcome.Fail? <==> quantity > p.reservedStock
    ensures r.outcome.Fail? ==> r.outcome.error == InvalidStock && r.product == p
    ensures r.outcome.Pass? ==> SameIdentity(p, r.product) && r.product.stock == p.stock
    ensures r.outcome.Pass? ==> r.product.reservedStock == p.reservedStock - quantity
    ensures r.outcome.Pass? ==> r.product.version == p.version + 1
    ensures Valid(p) && quantity >= 0 ==> Valid(r.product)
  {
    if quantity > p.reservedStock then Step(p, Fail(InvalidStock))
    else Step(p.(reservedStock := p.reservedStock - quantity, version := p.version + 1), Pass)
  }

  /** Cancel is the inverse of a successful reserve of the same quantity:
      stock and reservations are restored and the version has moved on by two. */
  lemma CancelUndoesReserve(p: Product, quantity: int)
    requires Valid(p)
    requires ReserveStock(p, quantity).outcome.Pass?
    ensures var held := ReserveStock(p, quantity).product;
            var back := CancelReservation(held, quantity);
            && back.outcome.Pass?
            && SameIdentity(p, back.product)
            && back.product.stock == p.stock
            && back.product.reservedStock == p.reservedStock
            && back.product.version == p.version + 2
  {
  }

  /** A worked trace: stock 10, reserve 7, confirm 7. */
  lemma ReserveThenConfirmScenario(p: Product)
    requires p.stock == 10 && p.reservedStock == 0 && p.version == 1
    ensures var reserved := ReserveStock(p, 7);
            var confirmed := ConfirmReservation(reserved.product, 7);
            && reserved.outcome.Pass?
            && reserved.product.stock == 10 && reserved.product.reservedStock == 7
            && reserved.product.version == 2
            && confirmed.outcome.Pass?
            && confirmed.product.stock == 3 && confirmed.product.reservedStock == 0
            && confirmed.product.version == 3
            && SameIdentity(p, confirmed.product)
  {
  }

  /** The operations carry no sign check on the quantity: a negative cancel is
      accepted and pushes reservations above the owned stock. This is why the
      invariant-preservation clauses above assume a non-negative quantity. */
  lemma NegativeCancelBreaksInvariant()
    ensures var p := Product(1, "widget", 100, 0, 0, 1, 0);
            var r := CancelReservation(p, -1);
            Valid(p) && r.outcome.Pass? && !Valid(r.product)
  {
  }
}

=== FILE: product_repository.dfy ===
/** The products table behind the inventory service. A row holds every column
    but the id, which is the map key; `nextId` is the serial sequence that
    hands out ids. `Update` is the version-stamped compare-and-swap: it writes
    only when the stored version is exactly one behind the product's. */
module ProductRepository {
  import opened Wrappers
  import opened StockLedger

  datatype Row = Row(
    name: string,
    price: int,
    stock: int,
    reservedStock: int,
    version: int,
    createdAt: int)

  datatype Store = Store(rows: map<int, Row>, nextId: int)

  datatype Created = Created(store: Store, product: Product)

  datatype Written = Written(store: Store, outcome: Outcome<ProductError>)

  /** The serial sequence is ahead of every id in use. */
  predicate WellFormed(s: Store) {
    forall id | id in s.rows :: id < s.nextId
  }

  /** Every stored row satisfies the ledger invariant. */
  predicate StoreValid(s: Store) {
    forall id | id in s.rows :: 0 <= s.rows[id].reservedStock <= s.rows[id].stock
  }

  function RowOf(p: Product): Row {
    Row(p.name, p.price, p.stock, p.reservedStock, p.version, p.createdAt)
  }

  function ProductOf(id: int, row: Row): Product {
    Product(id, row.name, row.price, row.stock, row.reservedStock, row.version, row.createdAt)
  }

  function GetByID(s: Store, id: int): (r: Result<Product, ProductError>)
    ensures r.Err? <==> id !in s.rows
    ensures r.Err? ==> r.error == NotFound
    ensures r.Ok? ==> r.value.id == id && RowOf(r.value) == s.rows[id]
  {
    if id in s.rows then Ok(ProductOf(id, s.rows[id])) else Err(NotFound)
  }

  /** Inserts name, price, stock, reserved stock and version under a fresh id
      (the creation time is the database's clock) and writes the id back. */
  function Create(s: Store, p: Product, now: int): (r: Created)
    requires WellFormed(s)
    ensures r.product.id !in s.rows
    ensures r.product == p.(id := r.product.id)
    ensures WellFormed(r.store)
    ensures GetByID(r.store, r.product.id) == Ok(p.(id := r.product.id, createdAt := now))
    ensures forall id | id != r.product.id :: GetByID(r.store, id) == GetByID(s, id)
  {
    var id := s.nextId;
    Created(Store(s.rows[id := RowOf(p.(createdAt := now))], id + 1), p.(id := id))
  }

  /** `UPDATE products SET stock, reserved_stock, version WHERE id = p.id AND
      version = p.version - 1`; no affected row is a concurrent update. */
  function Update(s: Store, p: Product): (r: Written)
    ensures r.outcome.Pass? <==> p.id in s.rows && s.rows[p.id].version == p.version - 1
    ensures r.outcome.Fail? ==> r.outcome.error == ConcurrentUpdate && r.store == s
    ensures r.store.nextId == s.nextId && r.store.rows.Keys == s.rows.Keys
    ensures r.outcome.Pass? ==> var row := r.store.rows[p.id];
              row.stock == p.stock && row.reservedStock == p.reservedStock && row.version == p.version
    ensures forall id | id in s.rows ::
              && r.store.rows[id].name == s.rows[id].name
              && r.store.rows[id].price == s.rows[id].price
              && r.store.rows[id].createdAt == s.rows[id].createdAt
    ensures forall id | id in s.rows && id != p.id :: r.store.rows[id] == s.rows[id]
  {
    if p.id in s.rows && s.rows[p.id].version == p.version - 1 then
      var row := s.rows[p.id];
      var row' := row.(stock := p.stock, reservedStock := p.reservedStock, version := p.version);
      Written(s.(rows := s.rows[p.id := row']), Pass)
    else
      Written(s, Fail(ConcurrentUpdate))
  }

  /** Reading back a row just written returns what was written, with the
      columns `Update` never touches taken from the old row. */
  lemma UpdateThenGet(s: Store, p: Product)
    requires Update(s, p).outcome.Pass?
    ensures GetByID(Update(s, p).store, p.id)
            == Ok(p.(name := s.rows[p.id].name, price := s.rows[p.id].price,
                     createdAt := s.rows[p.id].createdAt))
  {
  }

  /** Lost-update prevention: two writers that loaded the same version and
      each bumped it by one cannot both succeed; the second write fails and
      leaves the winner's row in place. */
  lemma SecondWriterLoses(s: Store, winner: Product, loser: Product)
    requires winner.id == loser.id && winner.version == loser.version
    requires Update(s, winner).outcome.Pass?
    ensures var after := Update(s, winner).store;
            Update(after, loser) == Written(after, Fail(ConcurrentUpdate))
  {
  }
}

=== FILE: product_service.dfy ===
/** The inventory application service: each stock operation loads the row,
    applies the ledger step to the loaded product and writes it back with the
    version compare-and-swap, after an optional injected failure. Every call
    also reports the repository calls it issued, so that "no write was
    attempted" can be stated apart from "the store did not change". */
module ProductService {
  import opened Wrappers
  import opened StockLedger
  import opened ProductRepository

  /** `failureMode` is the service's configured fault-injection switch. */
  datatype Config = Config(failureMode: string)

  datatype ServiceError = Ledger(cause: ProductError) | SimulatedFailure(message: string)

  /** A repository call issued by the service: a read or a conditional write. */
  datatype RepoCall = Load(id: int) | Save(id: int)

  datatype Operation = Reserve | Confirm | Cancel

  datatype ServiceStep = ServiceStep(store: Store, outcome: Outcome<ServiceError>, calls: seq<RepoCall>)

  datatype Creation = Creation(store: Store, result: Result<Product, ProductError>)

  /** The ledger step an operation stands for. */
  function Mutate(p: Product, op: Operation, quantity: int): Step {
    match op
    case Reserve => StockLedger.ReserveStock(p, quantity)
    case Confirm => ConfirmReservation(p, quantity)
    case Cancel => StockLedger.CancelReservation(p, quantity)
  }

  /** The read-and-mutate half of a service call: the product the service
      would write back, or the error that stops it before any write. */
  function Prepare(s: Store, id: int, op: Operation, quantity: int): (r: Result<Product, ProductError>)
    ensures id !in s.rows ==> r == Err(NotFound)
    ensures r.Ok? ==> id in s.rows && r.value.id == id && r.value.version == s.rows[id].version + 1
    ensures id in s.rows && r.Err? ==> Mutate(ProductOf(id, s.rows[id]), op, quantity).outcome.Fail?
  {
    match GetByID(s, id)
    case Err(e) => Err(e)
    case Ok(p) =>
      var step := Mutate(p, op, quantity);
      if step.outcome.Fail? then Err(step.outcome.error) else Ok(step.product)
  }

  /** Load, mutate, conditional write. A missing row or a rejected step
      returns its error with no write issued; otherwise the result is the
      outcome of the compare-and-swap. */
  function LoadMutateSave(s: Store, id: int, op: Operation, quantity: int): (r: ServiceStep)
    ensures id !in s.rows ==> r == ServiceStep(s, Fail(Ledger(NotFound)), [Load(id)])
    ensures Prepare(s, id, op, quantity).Err? ==>
              r == ServiceStep(s, Fail(Ledger(Prepare(s, id, op, quantity).error)), [Load(id)])
    ensures Prepare(s, id, op, quantity).Ok? ==>
              var w := Update(s, Prepare(s, id, op, quantity).value);
              r.calls == [Load(id), Save(id)] && r.store == w.store
              && (r.outcome.Pass? <==> w.outcome.Pass?)
    ensures Prepare(s, id, op, quantity).Ok? ==>
              r.outcome.Pass? && r.store.rows == s.rows[id := RowOf(Prepare(s, id, op, quantity).value)]
  {
    match GetByID(s, id)
    case Err(e) => ServiceStep(s, Fail(Ledger(e)), [Load(id)])
    case Ok(p) =>
      var step := Mutate(p, op, quantity);
      if step.outcome.Fail? then ServiceStep(s, Fail(Ledger(step.outcome.error)), [Load(id)])
      else
        var w := Update(s, step.product);
        var outcome := if w.outcome.Fail? then Fail(Ledger(w.outcome.error)) else Pass;
        ServiceStep(w.store, outcome, [Load(id), Save(id)])
  }

  function ReserveStock(cfg: Config, s: Store, id: int, quantity: int): (r: ServiceStep)
    ensures cfg.failureMode == "reserve" ==> r.outcome.Fail? && r.outcome.error.SimulatedFailure?
    ensures cfg.failureMode == "reserve" ==> r.store == s && r.calls == []
    ensures cfg.failureMode != "reserve" ==> r == LoadMutateSave(s, id, Reserve, quantity)
    ensures r.outcome.Pass? <==>
              cfg.failureMode != "reserve" && id in s.rows
              && quantity <= s.rows[id].stock - s.rows[id].reservedStock
    ensures r.outcome.Pass? ==> r.store.rows == s.rows[id := s.rows[id].(
              reservedStock := s.rows[id].reservedStock + quantity,
              version := s.rows[id].version + 1)]
    ensures r.outcome.Fail? ==> r.store == s
    ensures quantity >= 0 && StoreValid(s) ==> StoreValid(r.store)
  {
    if cfg.failureMode == "reserve" then
      ServiceStep(s, Fail(SimulatedFailure("simulated failure in stock reservation")), [])
    else
      LoadMutateSave(s, id, Reserve, quantity)
  }

  function ConfirmStock(cfg: Config, s: Store, id: int, quantity: int): (r: ServiceStep)
    ensures cfg.failureMode == "confirm" ==> r.outcome.Fail? && r.outcome.error.SimulatedFailure?
    ensures cfg.failureMode == "confirm" ==> r.store == s && r.calls == []
    ensures cfg.failureMode != "confirm" ==> r == LoadMutateSave(s, id, Confirm, quantity)
    ensures r.outcome.Pass? <==>
              cfg.failureMode != "confirm" && id in s.rows && quantity <= s.rows[id].reservedStock
    ensures r.outcome.Pass? ==> r.store.rows == s.rows[id := s.rows[id].(
              stock := s.rows[id].stock - quantity,
              reservedStock := s.rows[id].reservedStock - quantity,
              version := s.rows[id].version + 1)]
    ensures r.outcome.Fail? ==> r.store == s
    ensures quantity >= 0 && StoreValid(s) ==> StoreValid(r.store)
  {
    if cfg.failureMode == "confirm" then
      ServiceStep(s, Fail(SimulatedFailure("simulated failure in stock confirmation")), [])
    else
      LoadMutateSave(s, id, Confirm, quantity)
  }

  /** Cancelling has no injected failure. */
  function CancelReservation(s: Store, id: int, quantity: int): (r: ServiceStep)
    ensures r.calls != [] && r.calls[0] == Load(id)
    ensures r.outcome.Pass? <==> id in s.rows && quantity <= s.rows[id].reservedStock
    ensures r.outcome.Pass? ==> r.store.rows == s.rows[id := s.rows[id].(
              reservedStock := s.rows[id].reservedStock - quantity,
              version := s.rows[id].version + 1)]
    ensures r.outcome.Fail? ==> r.store == s
    ensures quantity >= 0 && StoreValid(s) ==> StoreValid(r.store)
  {
    LoadMutateSave(s, id, Cancel, quantity)
  }

  function GetProductByID(s: Store, id: int): (r: Result<Product, ProductError>)
    ensures r.Err? <==> id !in s.rows
    ensures r.Ok? ==> r.value == ProductOf(id, s.rows[id])
  {
    GetByID(s, id)
  }

  function CreateProduct(s: Store, name: string, price: int, stock: int, now: int, dbNow: int): (r: Creation)
    requires WellFormed(s)
    ensures stock < 0 ==> r == Creation(s, Err(InvalidStock))
    ensures stock >= 0 ==> r.result.Ok? && r.result.value.id !in s.rows && WellFormed(r.store)
    ensures stock >= 0 ==>
              GetByID(r.store, r.result.value.id) == Ok(Product(r.result.value.id, name, price, stock, 0, 1, dbNow))
    ensures stock >= 0 ==> r.result.value == Product(r.result.value.id, name, price, stock, 0, 1, now)
    ensures forall k | k in s.rows :: k in r.store.rows && r.store.rows[k] == s.rows[k]
    ensures StoreValid(s) ==> StoreValid(r.store)
  {
    match NewProduct(name, price, stock, now)
    case Err(e) => Creation(s, Err(e))
    case Ok(p) =>
      var c := Create(s, p, dbNow);
      Creation(c.store, Ok(c.product))
  }

  /** A writer that loaded the row before another service call committed
      cannot overwrite that call's result: its write fails as a concurrent
      update and the store keeps the winner's row. */
  lemma StaleWriterLoses(s: Store, id: int, op: Operation, quantity: int,
                         staleOp: Operation, staleQuantity: int)
    requires Prepare(s, id, op, quantity).Ok? && Prepare(s, id, staleOp, staleQuantity).Ok?
    ensures var winner := LoadMutateSave(s, id, op, quantity);
            var late := Update(winner.store, Prepare(s, id, staleOp, staleQuantity).value);
            winner.outcome.Pass? && late == Written(winner.store, Fail(ConcurrentUpdate))
  {
    var winner := Prepare(s, id, op, quantity).value;
    var stale := Prepare(s, id, staleOp, staleQuantity).value;
    SecondWriterLoses(s, winner, stale);
  }
}

=== FILE: wrappers.dfy ===
/** Failure-carrying values shared by every module of the model: Go's
    `(value, error)` pairs become `Result`, a bare `error` return becomes
    `Outcome`, and a nullable pointer becomes `Option`. */
module Wrappers {

  datatype Option<+T> = None | Some(value: T)

  /** A value or the error the Go function returned instead of it. */
  datatype Result<+T, +E> = Ok(value: T) | Err(error: E)

  /** A Go function that returns only `error`: `Pass` is a nil error. */
  datatype Outcome<+E> = Pass | Fail(error: E)
}
